=== FILE: README.md ===
# SpatialViewPy export core in Dafny

SpatialViewPy turns a multi-sample annotated matrix (an AnnData object whose observations are
10x Visium spots) into the per-sample folders that the SpatialView browser viewer reads. Its one
function, `prepare10x_from_scanpy`, does the following:

- checks that the matrix has at least two samples and one raw-data path per sample;
- optionally writes the viewer's configuration;
- for each sample, in order of first appearance:
  - creates a directory named after the sample id (step 0);
  - resolves and copies the spatial files, falling back to the low-resolution image (steps 1-2);
  - writes the sample's row of the sample table (step 3);
  - writes the metadata table, which joins the tissue positions with the observations on their stripped barcodes (step 4);
  - writes the expression matrix, either sparse with gene and barcode lists or dense (step 5);
  - writes the cluster-info table (step 6).

This project models that function and proves properties of the model. One module per rule:

- `Text` holds the Python string operations the rules use (`str.replace`, `str.split`, `str.join`, `os.path.join`).
- `Seqs` holds pandas `unique`.
- `Values` holds the observation values and their sort order.
- `Naming` is step 0.
- `Barcodes` is the barcode-suffix rule.
- `Samples` holds the matrix and its per-sample slices.
- `Assets` is steps 1-2, with the file system as the set of paths that exist.
- `SampleInfo` is step 3.
- `Metadata` is step 4.
- `Expression` is step 5.
- `Clusters` is step 6.
- `ViewerConfig` is the configuration merge.
- `Pipeline` is the run itself.

Every abort the model covers is a constructor of `Errors.Error`, returned through
`Wrappers.Result`. Aborts outside the model (the download, malformed input files, names the
file system refuses) are listed under "## Left out".

In `Pipeline`, the per-sample `for` loop is the method `ExportSamples`. Its loop state is what
the Python function changes as it goes:

- the directories in the export folder;
- the raw-data files created by decompression and by the image fallback;
- the three cluster lists, which keep their defaults from one sample to the next;
- the sample folders written so far.

`ExportSamples` is proved equal to the recursive function `ExportFrom`. The whole-run properties
are lemmas about `ExportFrom`. In the same way, the configuration override loop
`ViewerConfig.ApplyOverrides` is proved equal to `ViewerConfig.Overridden`.

Where the code as written cannot do what it evidently means to do, the model keeps both
versions. The `...AsWritten` member follows the code; the corrected member is the one the
`Pipeline` module uses. See "## Findings".

Two behaviours of the code worth knowing:

- With `download_repo=False`, or whenever the export folder still holds the first sample's
  directory, a second run stops at the first sample's `os.mkdir`, and the run ends there; it
  does not fail once per sample (`Pipeline.RerunAborts`). With `download_repo=True` the project
  folder is deleted and cloned afresh (lines 105-106) and the samples go into its `data`
  folder (line 115), so a second run starts from what the clone brings.
- Without a cluster column, the cluster table is not the single implicit cluster 1. The code
  fails with a TypeError unless colours and marker genes are both supplied
  (`Clusters.TableAsWritten`).
- An empty list of colours, names or marker genes counts as not supplied (`if not ...`, lines
  293-301): the defaults are used, exactly as for `None` (`Clusters.Supplied`).

## Model

| member | source | states |
|---|---|---|
| Naming.DirName | src/spatialviewpy/prepare_viz.py:157-166 | fails exactly when the id without spaces is empty (`dir_name[0]` on ""); a produced name has no space, at least two characters and no leading digit |
| Naming.DirNameShape | src/spatialviewpy/prepare_viz.py:157-166 | the name is the id with all spaces removed, prefixed by `X` exactly when that starts with a digit or is one character long |
| Naming.DirNameKeepsValid | src/spatialviewpy/prepare_viz.py:157-166 | a name that is already valid is returned unchanged |
| Naming.DirNameIdempotent | src/spatialviewpy/prepare_viz.py:157-166 | deriving the name of a derived name changes nothing |
| Naming.DirNameAsWritten | src/spatialviewpy/prepare_viz.py:168-169 | as written: with `verbose` set, every renamed sample aborts the run (NameError), otherwise as `DirName` |
| Naming.VerboseRenameAborts | src/spatialviewpy/prepare_viz.py:168-169 | the sample "2B" aborts a verbose run as written, while the corrected step names it "X2B" |
| Text.Without | src/spatialviewpy/prepare_viz.py:159 | `replace(" ", "")` keeps every other character with its multiplicity and drops every space |
| Text.IndexOf | src/spatialviewpy/prepare_viz.py:239 | the first position where the separator occurs, or none when it does not occur |
| Text.Split | src/spatialviewpy/prepare_viz.py:239 | at least one piece; joining the pieces with the separator gives the input back; no piece contains the separator; the first piece ends at the leftmost occurrence |
| Text.Join | src/spatialviewpy/prepare_viz.py:239 | `"-".join`: the result starts with the first piece |
| Text.SplitJoinChar | src/spatialviewpy/prepare_viz.py:239 | for a one-character separator, splitting inverts joining pieces free of it |
| Text.JoinSnoc | src/spatialviewpy/prepare_viz.py:239 | joining one more piece appends the separator and that piece |
| Text.PathJoin | src/spatialviewpy/prepare_viz.py:171 | a relative name joined to a folder keeps the folder as prefix and the name as suffix |
| Text.PathJoinInjective | src/spatialviewpy/prepare_viz.py:177-206 | different relative names under the same folder give different paths |
| Barcodes.StripSuffix | src/spatialviewpy/prepare_viz.py:239 | fails exactly for an empty pattern (`split("")` raises ValueError) |
| Barcodes.StripWithoutSeparator | src/spatialviewpy/prepare_viz.py:239 | a barcode that does not contain the pattern is stripped to "" |
| Barcodes.StripLastSegment | src/spatialviewpy/prepare_viz.py:239 | for a one-character pattern, the result is the first k-1 segments joined by "-" |
| Barcodes.StripSampleKey | src/spatialviewpy/prepare_viz.py:239 | a barcode `b` made unique with a pattern and a sample key is stripped back to `b` |
| Barcodes.StripAll | src/spatialviewpy/prepare_viz.py:276 | one stripped barcode per cell, position by position; fails exactly for an empty pattern when there is a cell to strip |
| Seqs.Unique | src/spatialviewpy/prepare_viz.py:76 | `unique()`: no repeats, exactly the values of the input |
| Seqs.UniqueFirstAppearance | src/spatialviewpy/prepare_viz.py:76 | the distinct values come in order of their first appearance |
| Values.SortDistinct | src/spatialviewpy/prepare_viz.py:291 | the corrected sort of a plain cluster column's distinct values: strictly ascending, same values |
| Values.SortDistinctCount | src/spatialviewpy/prepare_viz.py:291 | sorting keeps one entry per distinct value |
| Values.LessTotal | src/spatialviewpy/prepare_viz.py:291 | any two different values are ordered one way or the other |
| Values.LessTransitive | src/spatialviewpy/prepare_viz.py:291 | the sort order is transitive |
| Samples.Column | src/spatialviewpy/prepare_viz.py:76 | `obs[col]` holds each row's value of that column |
| Samples.RowsOf | src/spatialviewpy/prepare_viz.py:152 | the mask `obs[col] == v` selects exactly the rows holding `v`, in increasing order |
| Samples.RowsPartition | src/spatialviewpy/prepare_viz.py:149-152 | every row lies in the slice of exactly one sample |
| Samples.Slice | src/spatialviewpy/prepare_viz.py:152 | the slice keeps the selected rows' names, observations, counts and layers, every gene and the column categories |
| Samples.SampleSlice | src/spatialviewpy/prepare_viz.py:152 | the slice holds exactly the rows whose column equals the sample id, each once and in table order, with their names, observations, counts and layers |
| Assets.PathsFor | src/spatialviewpy/prepare_viz.py:177-206 | the six paths looked at for one sample are pairwise different |
| Assets.Unpack | src/spatialviewpy/prepare_viz.py:182-185 | decompression adds the plain file when its compressed form exists and changes nothing else |
| Assets.Resolve | src/spatialviewpy/prepare_viz.py:180-222 | corrected steps 1-2: on success no file is removed and the high-resolution image exists; the record is kept, or in the fallback takes the low-resolution scale as its high-resolution scale; missing scale factors are reported first |
| Assets.ResolveSourceExact | src/spatialviewpy/prepare_viz.py:182-222 | after success the raw-data tree is the old tree plus exactly the unpacked plain files and, in the fallback, the copied high-resolution image |
| Assets.ResolveAsWritten | src/spatialviewpy/prepare_viz.py:180-222 | as written: succeeds exactly when the corrected step succeeds without the image fallback, and then with the same result |
| Assets.ResolveFailsIff | src/spatialviewpy/prepare_viz.py:180-218 | resolution fails exactly when both forms of the scale factors or of the tissue positions are missing, when both images are missing, or when the fallback lacks a low-resolution scale |
| Assets.ResolveErrors | src/spatialviewpy/prepare_viz.py:180-193 | the scale factors are checked before the tissue positions, and each missing file is named |
| Assets.ResolveProvidesFiles | src/spatialviewpy/prepare_viz.py:182-222 | after success the plain scale factors, tissue positions and high-resolution image exist, and no file was removed |
| Assets.ScaleFactorsKept | src/spatialviewpy/prepare_viz.py:187 | with a high-resolution image the scale-factor record is exported unchanged |
| Assets.ScaleFactorFallback | src/spatialviewpy/prepare_viz.py:212-220 | in the fallback only `tissue_hires_scalef` changes, to the value of `tissue_lowres_scalef` |
| Assets.MissingImagesRaiseString | src/spatialviewpy/prepare_viz.py:207-208 | as written a sample with neither image stops on a raised string (TypeError); the corrected step reports both paths |
| Assets.FallbackAlwaysAborts | src/spatialviewpy/prepare_viz.py:207-213 | as written every sample without a high-resolution image aborts the run, while the corrected step exports it; with that image both agree |
| SampleInfo.RowFor | src/spatialviewpy/prepare_viz.py:226-233 | without a table nothing is written; with one, row `i` is written exactly when it exists, otherwise the run stops |
| SampleInfo.RowForAsWritten | src/spatialviewpy/prepare_viz.py:228-233 | as written: fails on exactly the same inputs as the corrected step and agrees with it on success; the error differs only for the index equal to the table length, a KeyError |
| SampleInfo.GuardAdmitsMissingRow | src/spatialviewpy/prepare_viz.py:228-229 | the written guard admits the index one past the last row, which then fails on lookup; elsewhere both versions agree |
| SampleInfo.DefaultInfo | src/spatialviewpy/prepare_viz.py:136-140 | the default table has one row per sample holding its id |
| SampleInfo.DefaultInfoCovers | src/spatialviewpy/prepare_viz.py:136-140 | with the default table step 3 never stops |
| Metadata.Annotate | src/spatialviewpy/prepare_viz.py:238-244 | every row gains `barcode` (its stripped name) and `cluster` and keeps its other columns; fails exactly for an empty pattern when there is a row to strip |
| Metadata.ClusterValue | src/spatialviewpy/prepare_viz.py:242-244 | a row's `cluster` is the cluster column's value when the table has the column, the stripped barcode when the column is named `barcode`, otherwise 1 |
| Metadata.AnnotateCluster | src/spatialviewpy/prepare_viz.py:241-244 | `cluster` is the cluster column's value when the column exists, else 1 |
| Metadata.InnerJoin | src/spatialviewpy/prepare_viz.py:252 | every joined record pairs a tissue-position row and an observation row with the same barcode, and every such pair is joined |
| Metadata.Matches | src/spatialviewpy/prepare_viz.py:252 | the observation rows matching one tissue-position row are exactly those with its barcode |
| Metadata.JoinFollowsLeftOrder | src/spatialviewpy/prepare_viz.py:252 | records follow the order of the tissue-position table |
| Metadata.JoinCount | src/spatialviewpy/prepare_viz.py:252 | with unique tissue-position barcodes the join has one record per observation row whose barcode is among them |
| Metadata.JoinBoundedByLeft | src/spatialviewpy/prepare_viz.py:252 | with unique observation barcodes the join has at most one record per tissue-position row |
| Metadata.JoinSize | src/spatialviewpy/prepare_viz.py:252 | with unique barcodes on both sides the join is no longer than either input |
| Expression.Transpose | src/spatialviewpy/prepare_viz.py:260 | the cells-by-genes slice becomes genes by cells with entry (g, c) equal to (c, g) |
| Expression.TransposeTwice | src/spatialviewpy/prepare_viz.py:260 | transposing back recovers the slice |
| Expression.Counts | src/spatialviewpy/prepare_viz.py:260-262 | an empty or absent layer name selects the primary matrix `X`, a known name that layer; an unknown name stops the run |
| Expression.Export | src/spatialviewpy/prepare_viz.py:260-284 | corrected step 5: a success is sparse exactly when sparse export was asked for; a failure is the unknown layer or, in sparse mode, the empty pattern |
| Expression.SparseAligned | src/spatialviewpy/prepare_viz.py:265-279 | sparse export: matrix rows are the genes in gene-list order, columns the cells in barcode-list order, barcodes stripped |
| Expression.DenseAligned | src/spatialviewpy/prepare_viz.py:280-284 | corrected dense export: one row per cell with its values in gene order and its unstripped barcode |
| Expression.ExportFailsIff | src/spatialviewpy/prepare_viz.py:260-279 | the export fails exactly for an unknown layer, or in sparse mode an empty pattern with a cell to strip |
| Expression.ExportAsWritten | src/spatialviewpy/prepare_viz.py:260-284 | step 5 as written: a success has the mode asked for and, in dense mode, one row per gene with as many genes as cells; a failure is the unknown layer, the empty pattern in sparse mode, or the dense shape mismatch |
| Expression.DenseTransposedAsWritten | src/spatialviewpy/prepare_viz.py:280-283 | as written the genes-by-cells array is labelled with one column per gene: unless genes and cells are equal in number it fails (ValueError) where the corrected export succeeds, and when they are equal row g holds gene g across the cells; sparse export is unaffected |
| Expression.ExportAsWrittenFailsIff | src/spatialviewpy/prepare_viz.py:260-284 | as written the export fails exactly for an unknown layer, an empty pattern with cells in sparse mode, or a dense slice whose gene and cell counts differ |
| Clusters.InCategoryOrder | src/spatialviewpy/prepare_viz.py:291 | the categories that occur in the column, each once, in the declared category order |
| Clusters.Labels | src/spatialviewpy/prepare_viz.py:289-291 | the cluster values are the distinct values of the column, in category order for a categorical column and ascending otherwise; a plain column mixing numbers and text cannot be sorted; without the column the single cluster 1 |
| Clusters.LabelsAsWritten | src/spatialviewpy/prepare_viz.py:291 | as written only a categorical column gets through, with the corrected labels; a plain column fails, since a NumPy array has no `sort_values` |
| Clusters.PlainColumnAborts | src/spatialviewpy/prepare_viz.py:291 | the integer column [2, 1] stops the run as written, while the corrected step gives clusters 1 and 2 |
| Clusters.Supplied | src/spatialviewpy/prepare_viz.py:293-301 | Python truthiness of a caller list: supplied unless it is `None` or empty |
| Clusters.Table | src/spatialviewpy/prepare_viz.py:293-306 | one row per cluster; colours, names and genes that are not supplied (`None` or an empty list) default to the palette, the cluster values and "undefined"; fails exactly when a list's length differs from the cluster count |
| Clusters.TableAsWritten | src/spatialviewpy/prepare_viz.py:289-306 | as written: a plain column fails; a categorical one gives the corrected table; without a cluster column it fails unless colours and genes are both supplied with matching lengths, and then has one row per colour, all of cluster 1 |
| Clusters.TableStable | src/spatialviewpy/prepare_viz.py:293-301 | the lists kept after the first sample rebuild the same table, so every sample gets the same cluster info |
| Clusters.TableRowsPerCluster | src/spatialviewpy/prepare_viz.py:289-306 | for a non-categorical cluster column, one row per distinct value, strictly ascending, and every value of the column has its row |
| Clusters.DefaultsNeverFail | src/spatialviewpy/prepare_viz.py:293-301 | with a palette of the requested size and no caller lists, building the table never fails |
| Clusters.MissingClusterColumn | src/spatialviewpy/prepare_viz.py:289-301 | without a cluster column and without colours the code as written stops, while the corrected step builds the single cluster 1; with three colours as written yields three rows for one cluster |
| ViewerConfig.Overridden | src/spatialviewpy/prepare_viz.py:121-124 | the overridden configuration has the same keys, the caller's value where given and the old value elsewhere |
| ViewerConfig.ApplyOverrides | src/spatialviewpy/prepare_viz.py:121-124 | the override loop keeps the key set, takes the caller's value for keys present and leaves the rest |
| ViewerConfig.Updated | src/spatialviewpy/prepare_viz.py:117-131 | the configuration written has the old keys plus the five settings, and every other key holds the override where given and the old value elsewhere |
| ViewerConfig.UpdateConfig | src/spatialviewpy/prepare_viz.py:117-133 | the written configuration has the old keys plus the five settings, the settings take the export's values, other keys take overrides where given |
| ViewerConfig.FixedSettingsWin | src/spatialviewpy/prepare_viz.py:121-130 | each of the five settings (the two expression files, genes, barcodes, cluster column) takes the export's value whatever the overrides say |
| ViewerConfig.OverridesAddNoKeys | src/spatialviewpy/prepare_viz.py:121-124 | a caller key the configuration lacks leaves no trace |
| Pipeline.SampleIds | src/spatialviewpy/prepare_viz.py:76 | the sample ids are the distinct values of the sample column, in order of first appearance |
| Pipeline.SampleData | src/spatialviewpy/prepare_viz.py:152 | the slice holds only rows of sample k, and every row of the full table with that id, with all genes and columns |
| Pipeline.SampleMetadata | src/spatialviewpy/prepare_viz.py:238-253 | step 4 on the slice fails exactly for an empty pattern with rows; each record pairs a tissue-position row of the sample's data path with an annotated row of the slice, on the same barcode |
| Pipeline.SampleExpression | src/spatialviewpy/prepare_viz.py:256-284 | step 5 on the slice fails exactly for an unknown layer or, in sparse mode, an empty pattern with cells; the result has the mode asked for |
| Pipeline.ClusterColumnOf | src/spatialviewpy/prepare_viz.py:289-291 | the cluster column exists exactly when the full table has the column; it has one label per cell of the full table, not of the slice, and its categories, when categorical, are distinct and hold every label |
| Pipeline.SampleClusters | src/spatialviewpy/prepare_viz.py:287-306 | step 6 fails only on unorderable labels or a list of the wrong length; on success the table has one row per cluster label of the full table, in label order |
| Pipeline.ExportSample | src/spatialviewpy/prepare_viz.py:152-308 | one pass of the loop body removes no directory and no raw-data file; a failing sample leaves the written samples and the lists as they were; a successful one appends exactly one sample, whose scale-factor record is its data path's record as steps 1-2 resolve it |
| Pipeline.ExportFrom | src/spatialviewpy/prepare_viz.py:149-308 | the loop from sample i on removes nothing, keeps the samples already written as a prefix, gives every sample it writes the scale-factor record steps 1-2 resolve, and when it finishes has written one folder per remaining sample |
| Pipeline.ExportSamples | src/spatialviewpy/prepare_viz.py:149-308 | the loop computes `ExportFrom` from the initial state: samples in order, stopping at the first error |
| Pipeline.StepShape | src/spatialviewpy/prepare_viz.py:157-308 | a sample exported without error has a new directory, resolved files, and its own steps 3 to 6 |
| Pipeline.LaterSteps | src/spatialviewpy/prepare_viz.py:226-308 | steps 3 to 6 succeed exactly when the sample-table row, metadata, expression and cluster table each do |
| Pipeline.LaterStepsParts | src/spatialviewpy/prepare_viz.py:226-308 | after steps 3 to 6 the sample-table row, metadata, expression and cluster table written are the results of those steps |
| Pipeline.StepProgress | src/spatialviewpy/prepare_viz.py:149-308 | one more sample keeps every loop invariant: names, contents and cluster tables |
| Pipeline.RunProgress | src/spatialviewpy/prepare_viz.py:149-308 | the loop invariants hold to the end of a run that does not stop |
| Pipeline.RunExportsEverySample | src/spatialviewpy/prepare_viz.py:149-308 | a finished run exported every sample into a new directory named after its id, with its own data path, the scale-factor record and fallback flag steps 1-2 resolve for it, its own sample-table row, slice metadata and expression, and for all samples the cluster table built from the caller's lists |
| Pipeline.CollidingNamesAbort | src/spatialviewpy/prepare_viz.py:171-172 | two samples whose ids give the same directory name stop the run |
| Pipeline.DefaultClustersNeverFail | src/spatialviewpy/prepare_viz.py:287-306 | without caller colours, names or genes, step 6 can stop a run only on a plain cluster column mixing numbers and text |
| Pipeline.RerunAborts | src/spatialviewpy/prepare_viz.py:171-172 | exporting into a folder that still holds the first sample's directory (a second run without the viewer download) stops at once without writing anything |
| Pipeline.EffectiveInfo | src/spatialviewpy/prepare_viz.py:136-140 | the caller's sample table when given; otherwise, when the viewer is downloaded, one row per sample holding its id; otherwise none |
| Pipeline.PrepareOutcome | src/spatialviewpy/prepare_viz.py:75-308 | a missing sample column stops the run with nothing written; a missing export folder stops it before any sample; the configuration `ViewerConfig.Updated` is written exactly when downloading and the sample checks pass; a finished run wrote one folder per data path, at least two |
| Pipeline.Prepare | src/spatialviewpy/prepare_viz.py:75-308 | the whole function computes `PrepareOutcome`: checks, configuration, then the loop |
| Pipeline.SampleCheck | src/spatialviewpy/prepare_viz.py:76-80 | fewer than two distinct samples, or a path count that differs, stops the run before anything is written |
| Pipeline.SamplesInFirstAppearanceOrder | src/spatialviewpy/prepare_viz.py:76-151 | a finished run handled the distinct ids in first-appearance order, sample i with data path i |

## Left out

- Downloading, unzipping and replacing the viewer (prepare_viz.py:85-110) are network and file I/O. Only their result is modelled; their failures (an HTTP error, a broken archive) are not. `World.exportDirs` is the directory names already in the folder the samples are written to. `World.viewerConfig` is the downloaded configuration.
- The HTML data-info page (136-146) is left out. So is the serialisation of every CSV and JSON file: only the values written are modelled.
- gzip decompression and file copying are modelled only as "the plain file now exists". The bytes copied are not modelled.
- The contents of the scale-factor and tissue-position files come from `World` as functions of the data path. Malformed files, and CSV files without six columns, are not modelled.
- `np.round`, `mmwrite` precision and the sparse file format: expression values are `real`, unrounded.
- The seaborn colorblind palette is the parameter `World.palette`, taken to give the number of colours asked for (`Clusters.FullPalette`), as seaborn does.
- `start_httpserver` and `launch_app` (310-332) start a subprocess and a browser.
- setup.py is packaging metadata.
- The `verbose` notice is not modelled, apart from the defect in `Naming.DirNameAsWritten`.
- Pipeline.Prepare, Pipeline.PrepareOutcome: run the corrected steps, so they do not stop where the function as written does: they have no `verbose` option (corrected `Naming.DirName`); a sample with only a low-resolution image is exported (`Assets.Resolve`); a sample index equal to the sample table's length stops with the intended error (`SampleInfo.RowFor`); a dense export with a gene count different from the cell count succeeds (`Expression.Export`); a plain cluster column is sorted (`Clusters.Labels`); and without a cluster column the single cluster 1 is built (`Clusters.Table`).
- Observation values are integers or strings. Floats, booleans and missing values are not modelled. Strings sort by code point. A categorical column carries its categories in declared order; other categorical features (unused categories in the codes, ordered flags) are not modelled.
- Expression.ExportFailsIff: assumes the count matrix is stored sparse, as `.toarray()` at line 282 needs; a dense NumPy matrix would stop the dense export with AttributeError, which is not modelled.
- SampleInfo.RowFor: assumes the caller's sample table has the default row labels 0..n-1; `.loc[i, :]` selects by label, so a table labelled otherwise raises KeyError, which is not modelled.
- A directory name the file system refuses (one holding `/`, say) is not modelled: `os.mkdir` at line 171 would raise.
- `isdigit` is modelled for ASCII digits only, and only the ASCII space is removed.
- The DataFrame column assignments at 239 and 242-244 act on a fresh copy of the observations. They are modelled as functions on values.
- pandas adds suffixes to columns that both sides of the join share. That renaming is not modelled: a joined record keeps the two rows apart.
- A dense matrix whose genes include one named `barcode` is not modelled.
- The state after a failure:
  - Sample folders written by earlier samples are kept in `Outcome.state`.
  - The files already copied into the failing sample's folder are not tracked.
  - Pipeline.ExportSample: when a later check of steps 1-2 stops a sample (the tissue-position check at line 193, the image check at line 207, or a missing low-resolution scale at line 217), the outcome keeps the raw-data tree as it was before that sample, without the scale-factor or tissue-position file already unpacked at lines 182-185 or 195-198.

## Findings

| source | as written | input that shows it | evidently intended | confidence | as-written member | corrected member |
|---|---|---|---|---|---|---|
| src/spatialviewpy/prepare_viz.py:168-169 | the notice prints `sel.sel_sample`, a name that does not exist | `verbose=True` and a sample id "2B" (renamed to "X2B"): NameError | print the notice and go on | not executed | Naming.DirNameAsWritten | Naming.DirName |
| src/spatialviewpy/prepare_viz.py:207-208 | raises an f-string, which is itself a TypeError | a sample folder without either image | raise an exception naming both paths | not executed | Assets.MissingImagesRaiseString | Assets.Resolve |
| src/spatialviewpy/prepare_viz.py:212-213 | `shutil.copyfileobj` is given two paths, so the low-resolution fallback always fails | a sample folder with only `tissue_lowres_image.png` | copy the file (`shutil.copyfile`) and export it as the high-resolution image | not executed | Assets.FallbackAlwaysAborts | Assets.Resolve |
| src/spatialviewpy/prepare_viz.py:228-229 | the guard `shape[0] >= i` admits `i == shape[0]` and `.loc[i, :]` then raises KeyError | a sample table with 2 rows and sample index 2 | `shape[0] > i`, with the intended message | not executed | SampleInfo.RowForAsWritten | SampleInfo.RowFor |
| src/spatialviewpy/prepare_viz.py:281-283 | the genes-by-cells array is given one column label per gene | a dense export of a slice with 1 cell and 2 genes: ValueError (2 labels for 1 column) | one row per cell, with a column per gene and the barcode | not executed | Expression.DenseTransposedAsWritten | Expression.DenseAligned |
| src/spatialviewpy/prepare_viz.py:291 | `unique()` of a non-categorical column is a NumPy array, which has no `sort_values` | an integer cluster column [2, 1]: AttributeError | the distinct cluster values in ascending order | not executed | Clusters.PlainColumnAborts | Clusters.Labels |
| src/spatialviewpy/prepare_viz.py:289-301 | without a cluster column `unique_clusters` is the int 1, and `len(1)` raises TypeError | no cluster column and no colours given | a single implicit cluster 1 with a palette colour, name 1 and genes "undefined" | not executed | Clusters.TableAsWritten | Clusters.Table |

=== FILE: assets.dfy ===
/** Resolution of the per-sample spatial files (prepare_viz.py, steps 1 and 2). The raw-data
    tree is the set of paths that exist; decompressing a `.gz` file or copying an image only
    makes the target path exist. */
module Assets {
  import opened Wrappers
  import opened Errors
  import opened Text

  type FileSet = set<string>
  type ScaleFactors = map<string, real>

  const ScaleFactorsFile := "scalefactors_json.json"
  const PositionsFile := "tissue_positions_list.csv"
  const HiresImage := "tissue_hires_image.png"
  const LowresImage := "tissue_lowres_image.png"
  const HiresScale := "tissue_hires_scalef"
  const LowresScale := "tissue_lowres_scalef"

  /** The six paths the step looks at under `dataPath/subDir`. */
  datatype SpatialPaths = SpatialPaths(
    scale: string, scaleGz: string,
    positions: string, positionsGz: string,
    hires: string, lowres: string)

  predicate PairwiseDistinct(p: SpatialPaths) {
    && p.scale != p.scaleGz && p.scale != p.positions && p.scale != p.positionsGz
    && p.scale != p.hires && p.scale != p.lowres
    && p.scaleGz != p.positions && p.scaleGz != p.positionsGz && p.scaleGz != p.hires && p.scaleGz != p.lowres
    && p.positions != p.positionsGz && p.positions != p.hires && p.positions != p.lowres
    && p.positionsGz != p.hires && p.positionsGz != p.lowres
    && p.hires != p.lowres
  }

  function PathsFor(dataPath: string, subDir: string): (p: SpatialPaths)
    ensures PairwiseDistinct(p)
  {
    var dir := PathJoin(dataPath, subDir);
    var names := [ScaleFactorsFile, ScaleFactorsFile + ".gz", PositionsFile, PositionsFile + ".gz",
                  HiresImage, LowresImage];
    assert forall i, j :: 0 <= i < j < |names| ==> names[i] != names[j] by {
      assert |names[0]| == 22 && |names[1]| == 25 && |names[2]| == 25 && |names[3]| == 28;
      assert |names[4]| == 22 && |names[5]| == 23;
      assert names[0][0] == 's' && names[1][0] == 's' && names[2][0] == 't' && names[4][0] == 't';
    }
    forall i, j | 0 <= i < j < |names| ensures PathJoin(dir, names[i]) != PathJoin(dir, names[j]) {
      PathJoinInjective(dir, names[i], names[j]);
    }
    SpatialPaths(PathJoin(dir, names[0]), PathJoin(dir, names[1]), PathJoin(dir, names[2]),
                 PathJoin(dir, names[3]), PathJoin(dir, names[4]), PathJoin(dir, names[5]))
  }

  /** The outcome of a successful resolution: the raw-data tree afterwards, the scale-factor
      record written to the export directory, and whether the low-resolution image was
      exported under the high-resolution name. */
  datatype Resolved = Resolved(source: FileSet, scaleFactors: ScaleFactors, lowresAsHires: bool)

  /** Decompression of `plain.gz` when it exists: afterwards the plain file exists too. */
  function Unpack(fs: FileSet, plain: string, packed: string): (r: FileSet)
    ensures fs <= r && r - fs <= {plain}
    ensures plain in r <==> plain in fs || packed in fs
  {
    if packed in fs then fs + {plain} else fs
  }

  /** Steps 1 and 2 with the image fallback working as the comment above it describes: when
      only the low-resolution image exists it is copied under the high-resolution name and the
      exported record takes the low-resolution scale as its high-resolution scale. `sf` is the
      record the plain scale-factor file holds once it has been unpacked. */
  function Resolve(fs: FileSet, p: SpatialPaths, sf: ScaleFactors): (r: Result<Resolved, Error>)
    ensures r.Success? ==> fs <= r.value.source && p.hires in r.value.source
    ensures r.Success? && !r.value.lowresAsHires ==> r.value.scaleFactors == sf
    ensures r.Success? && r.value.lowresAsHires ==>
      LowresScale in sf && r.value.scaleFactors == sf[HiresScale := sf[LowresScale]]
    ensures p.scale !in fs && p.scaleGz !in fs ==> r == Failure(MissingScaleFactors(p.scale))
  {
    if p.scale !in fs && p.scaleGz !in fs then Failure(MissingScaleFactors(p.scale))
    else
      var fs1 := Unpack(fs, p.scale, p.scaleGz);
      if p.positions !in fs1 && p.positionsGz !in fs1 then Failure(MissingTissuePositions(p.positions))
      else
        var fs2 := Unpack(fs1, p.positions, p.positionsGz);
        if p.hires !in fs2 && p.lowres !in fs2 then Failure(MissingImage(p.hires, p.lowres))
        else if p.hires !in fs2 then
          if LowresScale !in sf then Failure(MissingLowresScale)
          else Success(Resolved(fs2 + {p.hires}, sf[HiresScale := sf[LowresScale]], true))
        else Success(Resolved(fs2, sf, false))
  }

  /** After success the raw-data tree holds exactly the files it held before, the plain scale
      factors and tissue positions where their compressed form was unpacked, and the
      high-resolution image where the fallback copied it. */
  lemma ResolveSourceExact(fs: FileSet, p: SpatialPaths, sf: ScaleFactors)
    requires PairwiseDistinct(p)
    requires Resolve(fs, p, sf).Success?
    ensures var res := Resolve(fs, p, sf).value;
      res.source == fs + (if p.scaleGz in fs then {p.scale} else {})
                       + (if p.positionsGz in fs then {p.positions} else {})
                       + (if res.lowresAsHires then {p.hires} else {})
  {
  }

  /** The run stops exactly when a mandatory file is missing in both forms, when both images are
      missing, or when the fallback needs a low-resolution scale the record lacks. */
  lemma ResolveFailsIff(fs: FileSet, p: SpatialPaths, sf: ScaleFactors)
    requires PairwiseDistinct(p)
    ensures Resolve(fs, p, sf).Failure? <==>
        || (p.scale !in fs && p.scaleGz !in fs)
        || (p.positions !in fs && p.positionsGz !in fs)
        || (p.hires !in fs && p.lowres !in fs)
        || (p.hires !in fs && LowresScale !in sf)
  {
    var fs1 := Unpack(fs, p.scale, p.scaleGz);
    var fs2 := Unpack(fs1, p.positions, p.positionsGz);
    assert (p.positions in fs1 <==> p.positions in fs) && (p.positionsGz in fs1 <==> p.positionsGz in fs);
    assert (p.hires in fs2 <==> p.hires in fs) && (p.lowres in fs2 <==> p.lowres in fs);
  }

  /** The first missing item decides the error, in the order the steps check them. */
  lemma ResolveErrors(fs: FileSet, p: SpatialPaths, sf: ScaleFactors)
    requires PairwiseDistinct(p)
    ensures var r := Resolve(fs, p, sf);
      && (p.scale !in fs && p.scaleGz !in fs ==> r == Failure(MissingScaleFactors(p.scale)))
      && ((p.scale in fs || p.scaleGz in fs) && p.positions !in fs && p.positionsGz !in fs ==>
            r == Failure(MissingTissuePositions(p.positions)))
  {
  }

  /** After success every plain file the export copies exists, and nothing was removed. */
  lemma ResolveProvidesFiles(fs: FileSet, p: SpatialPaths, sf: ScaleFactors)
    requires Resolve(fs, p, sf).Success?
    ensures var res := Resolve(fs, p, sf).value;
      fs <= res.source && p.scale in res.source && p.positions in res.source && p.hires in res.source
  {
  }

  /** With a high-resolution image the scale-factor record is exported as it is. */
  lemma ScaleFactorsKept(fs: FileSet, p: SpatialPaths, sf: ScaleFactors)
    requires Resolve(fs, p, sf).Success?
    requires p.hires in fs
    ensures Resolve(fs, p, sf).value.scaleFactors == sf
    ensures !Resolve(fs, p, sf).value.lowresAsHires
  {
  }

  /** The low-resolution fallback: only `tissue_hires_scalef` changes, and it takes exactly the
      value of `tissue_lowres_scalef`. */
  lemma ScaleFactorFallback(fs: FileSet, p: SpatialPaths, sf: ScaleFactors)
    requires PairwiseDistinct(p)
    requires Resolve(fs, p, sf).Success?
    requires p.hires !in fs
    ensures var res := Resolve(fs, p, sf).value;
      && res.lowresAsHires
      && LowresScale in sf
      && HiresScale in res.scaleFactors
      && res.scaleFactors[HiresScale] == sf[LowresScale]
      && res.scaleFactors.Keys == sf.Keys + {HiresScale}
      && forall k :: k in sf && k != HiresScale ==> res.scaleFactors[k] == sf[k]
  {
    var fs2 := Unpack(Unpack(fs, p.scale, p.scaleGz), p.positions, p.positionsGz);
    assert p.hires !in fs2;
    assert Resolve(fs, p, sf).value.scaleFactors == sf[HiresScale := sf[LowresScale]];
  }

  /** Steps 1 and 2 as written: a missing pair of images raises a string (itself a TypeError),
      and the fallback hands two paths to `shutil.copyfileobj`, which needs open files. */
  function ResolveAsWritten(fs: FileSet, p: SpatialPaths, sf: ScaleFactors): (r: Result<Resolved, Error>)
    ensures r.Success? <==> Resolve(fs, p, sf).Success? && !Resolve(fs, p, sf).value.lowresAsHires
    ensures r.Success? ==> r == Resolve(fs, p, sf)
  {
    if p.scale !in fs && p.scaleGz !in fs then Failure(MissingScaleFactors(p.scale))
    else
      var fs1 := Unpack(fs, p.scale, p.scaleGz);
      if p.positions !in fs1 && p.positionsGz !in fs1 then Failure(MissingTissuePositions(p.positions))
      else
        var fs2 := Unpack(fs1, p.positions, p.positionsGz);
        if p.hires !in fs2 && p.lowres !in fs2 then Failure(RaisedString)
        else if p.hires !in fs2 then Failure(CopyFileObjOnPath)
        else Success(Resolved(fs2, sf, false))
  }

  /** With the mandatory files present and both images missing, the step as written stops on a
      TypeError that names neither image, where the corrected step reports both paths. */
  lemma MissingImagesRaiseString(fs: FileSet, p: SpatialPaths, sf: ScaleFactors)
    requires PairwiseDistinct(p)
    requires p.scale in fs || p.scaleGz in fs
    requires p.positions in fs || p.positionsGz in fs
    requires p.hires !in fs && p.lowres !in fs
    ensures ResolveAsWritten(fs, p, sf) == Failure(RaisedString)
    ensures Resolve(fs, p, sf) == Failure(MissingImage(p.hires, p.lowres))
  {
    var fs2 := Unpack(Unpack(fs, p.scale, p.scaleGz), p.positions, p.positionsGz);
    assert p.hires !in fs2 && p.lowres !in fs2;
  }

  /** As written, the fallback can never succeed: every sample without a high-resolution image
      stops the run, while the corrected step exports it whenever the record has a
      low-resolution scale. Where a high-resolution image exists the two agree. */
  lemma FallbackAlwaysAborts(fs: FileSet, p: SpatialPaths, sf: ScaleFactors)
    requires PairwiseDistinct(p)
    ensures p.hires !in fs ==> ResolveAsWritten(fs, p, sf).Failure?
    ensures
      && p.hires !in fs && p.lowres in fs && LowresScale in sf
      && (p.scale in fs || p.scaleGz in fs) && (p.positions in fs || p.positionsGz in fs)
      ==> Resolve(fs, p, sf).Success? && Resolve(fs, p, sf).value.lowresAsHires
    ensures p.hires in fs ==> ResolveAsWritten(fs, p, sf) == Resolve(fs, p, sf)
  {
  }
}

=== FILE: barcodes.dfy ===
/** The barcode-suffix rule shared by the metadata join and the barcode list:
    `"-".join(bc.split(multisample_pattern)[:-1])` (prepare_viz.py:239 and :276). */
module Barcodes {
  import opened Wrappers
  import opened Errors
  import opened Text

  /** Splits on the pattern, drops the last piece and joins the rest with "-". An empty
      pattern is refused by `str.split`. */
  function StripSuffix(bc: string, pattern: string): (r: Result<string, Error>)
    ensures r.Failure? <==> pattern == ""
    ensures r.Failure? ==> r.error == EmptySeparator
  {
    if pattern == "" then Failure(EmptySeparator)
    else
      var parts := Split(bc, pattern);
      Success(Join("-", parts[..|parts| - 1]))
  }

  /** A barcode that does not contain the pattern at all is stripped to the empty string. */
  lemma StripWithoutSeparator(bc: string, pattern: string)
    requires pattern != "" && !Contains(bc, pattern)
    ensures StripSuffix(bc, pattern) == Success("")
  {
    assert IndexOf(bc, pattern).None?;
    assert Split(bc, pattern) == [bc];
  }

  /** With a one-character pattern, stripping removes exactly the last pattern and what follows
      it, and turns the earlier patterns into "-". */
  lemma StripLastSegment(c: char, parts: seq<string>, suffix: string)
    requires |parts| >= 1
    requires forall k :: 0 <= k < |parts| ==> c !in parts[k]
    requires c !in suffix
    ensures StripSuffix(Join([c], parts) + [c] + suffix, [c]) == Success(Join("-", parts))
  {
    JoinSnoc([c], parts, suffix);
    SplitJoinChar(c, parts + [suffix]);
    assert (parts + [suffix])[..|parts|] == parts;
  }

  /** The usual case: a barcode made unique as `b + c + sampleKey` is stripped back to `b`. */
  lemma StripSampleKey(c: char, b: string, sampleKey: string)
    requires c !in b && c !in sampleKey
    ensures StripSuffix(b + [c] + sampleKey, [c]) == Success(b)
  {
    StripLastSegment(c, [b], sampleKey);
  }

  /** The rule applied to every barcode of a table, position by position. An empty table calls
      `split` on nothing, so even an empty pattern gives the empty list. */
  function StripAll(bcs: seq<string>, pattern: string): (r: Result<seq<string>, Error>)
    ensures r.Failure? <==> pattern == "" && |bcs| > 0
    ensures r.Failure? ==> r.error == EmptySeparator
    ensures r.Success? ==> |r.value| == |bcs|
    ensures r.Success? ==> forall i :: 0 <= i < |bcs| ==> StripSuffix(bcs[i], pattern) == Success(r.value[i])
  {
    if pattern == "" && |bcs| > 0 then Failure(EmptySeparator)
    else Success(seq(|bcs|, i requires 0 <= i < |bcs| => StripSuffix(bcs[i], pattern).value))
  }
}

=== FILE: clusters.dfy ===
/** The cluster-info table (prepare_viz.py, step 6): one row per cluster with its colour, display
    name and marker genes. The three caller lists persist across samples once defaulted. */
module Clusters {
  import opened Wrappers
  import opened Errors
  import opened Values
  import opened Seqs

  datatype ClusterRow = ClusterRow(cluster: Value, color: string, name: Value, genes: string)

  /** The caller's colours, names and marker genes as the loop carries them from sample to sample. */
  datatype Lists = Lists(colors: Option<seq<string>>, names: Option<seq<Value>>, genes: Option<seq<string>>)

  /** Python truthiness of an optional list: `None` and `[]` both read as "not supplied". */
  predicate Supplied<T(==)>(o: Option<seq<T>>): (b: bool)
    ensures b <==> !(o == None || o == Some([]))
  {
    o.Some? && |o.value| > 0
  }

  const Undefined := "undefined"

  predicate Homogeneous(vals: seq<Value>) {
    (forall v :: v in vals ==> v.Num?) || (forall v :: v in vals ==> v.Text?)
  }

  /** The cluster column of the full observation table: its values, and its categories in
      their declared order when the column is categorical. */
  datatype ClusterColumn = ClusterColumn(values: seq<Value>, categories: Option<seq<Value>>)

  /** What pandas guarantees of a categorical column: distinct categories holding every value. */
  predicate Coherent(c: ClusterColumn) {
    c.categories.Some? ==> Distinct(c.categories.value) && forall v :: v in c.values ==> v in c.categories.value
  }

  /** The categories that occur among `values`, in category order: `unique().sort_values()` on a
      categorical column, which orders by category code. */
  function InCategoryOrder(cats: seq<Value>, values: seq<Value>): (r: seq<Value>)
    requires Distinct(cats)
    ensures forall v :: v in r <==> v in cats && v in values
    ensures forall i, j :: 0 <= i < j < |r| ==> FirstIndex(cats, r[i]) < FirstIndex(cats, r[j])
    ensures Distinct(r)
  {
    if cats == [] then []
    else
      var rest := InCategoryOrder(cats[1..], values);
      forall v | v in rest ensures FirstIndex(cats, v) == 1 + FirstIndex(cats[1..], v) {
        assert v != cats[0];
      }
      (if cats[0] in values then [cats[0]] else []) + rest
  }

  /** The canonical clusters when the full observation table has a cluster column: its distinct
      values in category order for a categorical column, otherwise in ascending order, as
      `sorted(set(...))` would give; Python refuses to order a number against a string. Without
      the column there is the single implicit cluster 1. */
  function Labels(column: Option<ClusterColumn>): (r: Result<seq<Value>, Error>)
    requires column.Some? ==> Coherent(column.value)
    ensures column.None? ==> r == Success([Num(1)])
    ensures r.Failure? <==>
      column.Some? && column.value.categories.None? && !Homogeneous(column.value.values)
    ensures r.Failure? ==> r.error == UnorderableLabels
    ensures column.Some? && r.Success? ==>
      && Distinct(r.value)
      && (forall v :: v in r.value <==> v in column.value.values)
      && |r.value| == |Unique(column.value.values)|
    ensures column.Some? && column.value.categories.None? && r.Success? ==> StrictlyIncreasing(r.value)
    ensures column.Some? && column.value.categories.Some? ==> var cats := column.value.categories.value;
      forall i, j :: 0 <= i < j < |r.value| ==> FirstIndex(cats, r.value[i]) < FirstIndex(cats, r.value[j])
  {
    match column
    case None => Success([Num(1)])
    case Some(c) =>
      match c.categories
      case Some(cats) =>
        var r := InCategoryOrder(cats, c.values);
        DistinctSameElements(r, Unique(c.values));
        Success(r)
      case None =>
        if Homogeneous(c.values) then
          var r := SortDistinct(c.values);
          IncreasingIsDistinct(r);
          SortDistinctCount(c.values);
          Success(r)
        else Failure(UnorderableLabels)
  }

  /** Line 291 as written: `unique()` of a plain column is a NumPy array, which has no
      `sort_values`; only a categorical column gets through. */
  function LabelsAsWritten(c: ClusterColumn): (r: Result<seq<Value>, Error>)
    requires Coherent(c)
    ensures r.Failure? <==> c.categories.None?
    ensures r.Failure? ==> r.error == NoSortValues
    ensures c.categories.Some? ==> r == Labels(Some(c))
  {
    if c.categories.None? then Failure(NoSortValues)
    else Success(InCategoryOrder(c.categories.value, c.values))
  }

  /** An integer cluster column [2, 1] stops the run as written, while the corrected step gives
      the clusters 1 and 2. */
  lemma PlainColumnAborts()
    ensures LabelsAsWritten(ClusterColumn([Num(2), Num(1)], None)) == Failure(NoSortValues)
    ensures Labels(Some(ClusterColumn([Num(2), Num(1)], None))) == Success([Num(1), Num(2)])
  {
    var vals := [Num(2), Num(1)];
    assert Homogeneous(vals);
    assert SortDistinct([Num(1)]) == [Num(1)] by {
      assert [Num(1)][1..] == [];
    }
    assert vals[1..] == [Num(1)];
    assert SortDistinct(vals) == Insert(Num(2), [Num(1)]);
    assert !Less(Num(2), Num(1)) && [Num(1)][1..] == [];
    assert Insert(Num(2), [Num(1)]) == [Num(1)] + Insert(Num(2), []);
    assert [Num(1)] + [Num(2)] == [Num(1), Num(2)];
  }

  /** Defaults for the lists not supplied (palette colours, the labels themselves, "undefined"),
      then one row per label; any list whose length differs from the number of labels stops the
      run. Also returns the lists as the loop carries them on. `palette(n)` stands for the
      colorblind palette of `n` colours as hex strings. */
  function Table(labels: seq<Value>, lists: Lists, palette: nat -> seq<string>): (r: Result<(seq<ClusterRow>, Lists), Error>)
    ensures r.Success? <==>
      && (if Supplied(lists.colors) then |lists.colors.value| else |palette(|labels|)|) == |labels|
      && (Supplied(lists.names) ==> |lists.names.value| == |labels|)
      && (Supplied(lists.genes) ==> |lists.genes.value| == |labels|)
    ensures r.Failure? ==> r.error == ClusterLengthMismatch
    ensures r.Success? ==> var rows := r.value.0;
      && |rows| == |labels|
      && (forall i :: 0 <= i < |rows| ==> rows[i].cluster == labels[i])
      && (forall i :: 0 <= i < |rows| ==>
            rows[i].color == if Supplied(lists.colors) then lists.colors.value[i] else palette(|labels|)[i])
      && (forall i :: 0 <= i < |rows| ==>
            rows[i].name == if Supplied(lists.names) then lists.names.value[i] else labels[i])
      && (forall i :: 0 <= i < |rows| ==>
            rows[i].genes == if Supplied(lists.genes) then lists.genes.value[i] else Undefined)
  {
    var n := |labels|;
    var colors := if Supplied(lists.colors) then lists.colors.value else palette(n);
    var names := if Supplied(lists.names) then lists.names.value else labels;
    var genes := if Supplied(lists.genes) then lists.genes.value else seq(n, _ => Undefined);
    if |colors| != n || |names| != n || |genes| != n then Failure(ClusterLengthMismatch)
    else
      Success((seq(n, i requires 0 <= i < n => ClusterRow(labels[i], colors[i], names[i], genes[i])),
               Lists(Some(colors), Some(names), Some(genes))))
  }

  /** The lists carried on to the next sample rebuild exactly the same table: every sample
      directory receives the same cluster info. */
  lemma TableStable(labels: seq<Value>, lists: Lists, palette: nat -> seq<string>)
    requires Table(labels, lists, palette).Success?
    ensures var (rows, carried) := Table(labels, lists, palette).value;
      Table(labels, carried, palette) == Table(labels, lists, palette)
  {
  }

  /** The full table for a plain cluster column: one row per distinct value, in ascending
      order. */
  lemma TableRowsPerCluster(column: seq<Value>, lists: Lists, palette: nat -> seq<string>)
    requires Labels(Some(ClusterColumn(column, None))).Success?
    requires Table(Labels(Some(ClusterColumn(column, None))).value, lists, palette).Success?
    ensures var rows := Table(Labels(Some(ClusterColumn(column, None))).value, lists, palette).value.0;
      && |rows| == |Unique(column)|
      && (forall i, j :: 0 <= i < j < |rows| ==> Less(rows[i].cluster, rows[j].cluster))
      && (forall v :: v in column <==> exists i :: 0 <= i < |rows| && rows[i].cluster == v)
  {
    var labels := Labels(Some(ClusterColumn(column, None))).value;
    var rows := Table(labels, lists, palette).value.0;
    forall v ensures v in column <==> exists i :: 0 <= i < |rows| && rows[i].cluster == v {
      if v in column {
        var i :| 0 <= i < |labels| && labels[i] == v;
        assert rows[i].cluster == v;
      }
    }
  }

  /** A palette that gives the `n` colours it is asked for, as seaborn's does. */
  ghost predicate FullPalette(palette: nat -> seq<string>) {
    forall n: nat :: |palette(n)| == n
  }

  /** With a full palette and no caller lists, building the table never stops the run. */
  lemma DefaultsNeverFail(labels: seq<Value>, lists: Lists, palette: nat -> seq<string>)
    requires FullPalette(palette)
    requires !Supplied(lists.colors) && !Supplied(lists.names) && !Supplied(lists.genes)
    ensures Table(labels, lists, palette).Success?
  {
    assert |palette(|labels|)| == |labels|;
  }

  /** Step 6 as written: without a cluster column `unique_clusters` is the integer 1, so asking
      for its length (to default the colours or the marker genes) raises a TypeError; and when the
      caller supplies both, the table has one row per supplied colour, all of cluster 1. */
  function TableAsWritten(column: Option<ClusterColumn>, lists: Lists, palette: nat -> seq<string>): (r: Result<seq<ClusterRow>, Error>)
    requires column.Some? ==> Coherent(column.value)
    ensures column.Some? && column.value.categories.None? ==> r == Failure(NoSortValues)
    ensures column.Some? && column.value.categories.Some? ==>
      var t := Table(Labels(column).value, lists, palette);
      && (r.Success? <==> t.Success?)
      && (r.Success? ==> r.value == t.value.0)
    ensures column.None? ==> (r.Failure? <==>
      || !Supplied(lists.colors) || !Supplied(lists.genes)
      || |lists.genes.value| != |lists.colors.value|
      || (Supplied(lists.names) && |lists.names.value| != |lists.colors.value|))
    ensures column.None? && !(Supplied(lists.colors) && Supplied(lists.genes)) ==> r == Failure(LenOfInt)
    ensures column.None? && r.Success? ==>
      && |r.value| == |lists.colors.value|
      && forall i :: 0 <= i < |r.value| ==> r.value[i].cluster == Num(1)
  {
    match column
    case Some(c) =>
      (match LabelsAsWritten(c)
       case Failure(e) => Failure(e)
       case Success(labels) =>
         match Table(labels, lists, palette)
         case Failure(e) => Failure(e)
         case Success(t) => Success(t.0))
    case None =>
      if !Supplied(lists.colors) || !Supplied(lists.genes) then Failure(LenOfInt)
      else
        var colors, genes := lists.colors.value, lists.genes.value;
        var m := |colors|;
        if |genes| != m || (Supplied(lists.names) && |lists.names.value| != m) then Failure(ClusterLengthMismatch)
        else Success(seq(m, i requires 0 <= i < m =>
          ClusterRow(Num(1), colors[i], if Supplied(lists.names) then lists.names.value[i] else Num(1), genes[i])))
  }

  /** Without a cluster column and with no colours supplied the run stops as written, while the
      corrected step gives the single cluster 1 with marker genes "undefined"; with three colours
      and three gene strings supplied, the step as written emits three rows for one cluster. */
  lemma MissingClusterColumn(lists: Lists, palette: nat -> seq<string>)
    requires |palette(1)| == 1
    ensures !Supplied(lists.colors) ==> TableAsWritten(None, lists, palette) == Failure(LenOfInt)
    ensures !Supplied(lists.colors) && !Supplied(lists.names) && !Supplied(lists.genes) ==>
      Table(Labels(None).value, lists, palette) ==
        Success(([ClusterRow(Num(1), palette(1)[0], Num(1), Undefined)],
                 Lists(Some(palette(1)), Some([Num(1)]), Some([Undefined]))))
    ensures var three := Lists(Some(["#a", "#b", "#c"]), None, Some(["g", "g", "g"]));
      && |TableAsWritten(None, three, palette).value| == 3
      && Table(Labels(None).value, three, palette).Failure?
  {
    var labels := Labels(None).value;
    assert labels == [Num(1)];
    if !Supplied(lists.colors) && !Supplied(lists.names) && !Supplied(lists.genes) {
      assert seq(1, _ => Undefined) == [Undefined];
      var t := Table(labels, lists, palette).value;
      assert t.0 == [ClusterRow(Num(1), palette(1)[0], Num(1), Undefined)];
    }
  }
}

=== FILE: errors.dfy ===
/** The ways one export run can abort. Each constructor names the Python exception the
    source raises at that point (the run never recovers from any of them). */
module Errors {

  datatype Error =
    // configuration errors
    | MissingSampleColumn(column: string)          // KeyError on obs[samples_id_col]
    | SampleCountMismatch(samples: nat, paths: nat) // AssertionError at the sample/path check
    | ExportPathMissing                            // AssertionError: export_path does not exist
    | SampleIdNotText                              // AttributeError: a non-string id has no .replace
    | EmptyDirName                                 // IndexError: dir_name[0] on an empty name
    | VerboseNameError                             // NameError: `sel` is not defined
    | DirectoryExists(name: string)                // FileExistsError from os.mkdir
    | EmptySeparator                               // ValueError: str.split("") on an empty pattern
    // missing spatial assets
    | MissingScaleFactors(path: string)
    | MissingTissuePositions(path: string)
    | MissingImage(hires: string, lowres: string)
    | RaisedString                                 // TypeError: a str was raised, not an exception
    | CopyFileObjOnPath                            // AttributeError: copyfileobj given two paths
    | MissingLowresScale                           // KeyError on tissue_lowres_scalef
    // sample info
    | SampleInfoShort                              // AssertionError on too few rows
    | SampleInfoKey(row: nat)                      // KeyError from .loc on a missing row label
    // expression
    | MissingLayer(layer: string)                  // KeyError on layers[layer]
    | DenseShapeMismatch                           // ValueError: column labels do not fit the array
    // cluster info
    | NoSortValues                                 // AttributeError: a NumPy array has no sort_values
    | UnorderableLabels                            // TypeError: Python will not order a number and a string
    | LenOfInt                                     // TypeError: len() of the int 1
    | ClusterLengthMismatch                        // ValueError: columns of different lengths
}

=== FILE: expression.dfy ===
/** The expression export of one sample (prepare_viz.py, step 5), structurally: which numbers
    end up where, and which names are written beside them. */
module Expression {
  import opened Wrappers
  import opened Errors
  import opened Samples
  import opened Barcodes

  /** `m.T` for a matrix with `cols` columns. */
  function Transpose(m: Matrix, cols: nat): (t: Matrix)
    requires Shaped(m, |m|, cols)
    ensures Shaped(t, cols, |m|)
    ensures forall g, c :: 0 <= g < cols && 0 <= c < |m| ==> t[g][c] == m[c][g]
  {
    seq(cols, g requires 0 <= g < cols => seq(|m|, c requires 0 <= c < |m| => m[c][g]))
  }

  /** Transposing twice gives the matrix back: a reader who transposes the written genes-by-cells
      matrix recovers the cells-by-genes slice. */
  lemma TransposeTwice(m: Matrix, cols: nat)
    requires Shaped(m, |m|, cols)
    ensures Transpose(Transpose(m, cols), |m|) == m
  {
    var tt := Transpose(Transpose(m, cols), |m|);
    forall c | 0 <= c < |m| ensures tt[c] == m[c] {
      assert |tt[c]| == cols == |m[c]|;
    }
  }

  datatype DenseRow = DenseRow(values: seq<real>, barcode: string)

  /** Sparse mode writes a genes-by-cells matrix and, beside it, the gene list and the stripped
      barcode list; dense mode writes one row per cell, one column per gene, then `barcode`. */
  datatype Artifact =
    | Sparse(matrix: Matrix, genes: seq<string>, barcodes: seq<string>)
    | Dense(columns: seq<string>, rows: seq<DenseRow>)

  const BarcodeColumn := "barcode"

  /** `if layer:` picks `layers[layer]` for a non-empty name, else the primary matrix. */
  function Counts(a: AnnData, layer: Option<string>): (r: Result<Matrix, Error>)
    requires WellFormed(a)
    ensures r.Failure? <==> layer.Some? && layer.value != "" && layer.value !in a.layers
    ensures r.Success? ==> Shaped(r.value, |a.obs|, |a.varNames|)
    ensures r.Success? ==> r.value == if layer.Some? && layer.value != "" then a.layers[layer.value] else a.x
  {
    match layer
    case Some(l) =>
      if l == "" then Success(a.x)
      else if l in a.layers then Success(a.layers[l])
      else Failure(MissingLayer(l))
    case None => Success(a.x)
  }

  /** Step 5 with the dense table written one row per cell, as the `barcode` column beside it
      evidently intends; the sparse branch is exactly as written. */
  function Export(a: AnnData, layer: Option<string>, sparse: bool, pattern: string): (r: Result<Artifact, Error>)
    requires WellFormed(a)
    ensures r.Success? ==> r.value.Sparse? == sparse
    ensures r.Failure? ==> (layer.Some? && r.error == MissingLayer(layer.value)) || (sparse && r.error == EmptySeparator)
  {
    match Counts(a, layer)
    case Failure(e) => Failure(e)
    case Success(m) =>
      if sparse then
        match StripAll(a.obsNames, pattern)
        case Failure(e) => Failure(e)
        case Success(bcs) => Success(Sparse(Transpose(m, |a.varNames|), a.varNames, bcs))
      else
        Success(Dense(a.varNames + [BarcodeColumn],
          seq(|a.obs|, c requires 0 <= c < |a.obs| => DenseRow(m[c], a.obsNames[c]))))
  }

  /** Sparse export: row g of the matrix is gene `genes[g]`, column c is the cell whose stripped
      barcode is `barcodes[c]`, and entry (g, c) is that cell's value for that gene. */
  lemma SparseAligned(a: AnnData, layer: Option<string>, pattern: string)
    requires WellFormed(a)
    requires Export(a, layer, true, pattern).Success?
    ensures var e := Export(a, layer, true, pattern).value;
      var m := Counts(a, layer).value;
      && e.Sparse?
      && e.genes == a.varNames
      && |e.barcodes| == |a.obsNames|
      && Shaped(e.matrix, |e.genes|, |e.barcodes|)
      && (forall c :: 0 <= c < |e.barcodes| ==> StripSuffix(a.obsNames[c], pattern) == Success(e.barcodes[c]))
      && (forall g, c :: 0 <= g < |e.genes| && 0 <= c < |e.barcodes| ==> e.matrix[g][c] == m[c][g])
  {
  }

  /** Dense export: one row per cell in observation order, holding that cell's values for the
      genes in gene order and its barcode as it is, not stripped. */
  lemma DenseAligned(a: AnnData, layer: Option<string>, pattern: string)
    requires WellFormed(a)
    requires Export(a, layer, false, pattern).Success?
    ensures var e := Export(a, layer, false, pattern).value;
      var m := Counts(a, layer).value;
      && e.Dense?
      && e.columns == a.varNames + [BarcodeColumn]
      && |e.rows| == |a.obs|
      && forall c :: 0 <= c < |e.rows| ==>
           e.rows[c].values == m[c] && |e.rows[c].values| == |a.varNames| && e.rows[c].barcode == a.obsNames[c]
  {
  }

  /** The export stops only for a named layer that does not exist, or, in sparse mode, for an
      empty suffix pattern on a slice with at least one cell. */
  lemma ExportFailsIff(a: AnnData, layer: Option<string>, sparse: bool, pattern: string)
    requires WellFormed(a)
    ensures Export(a, layer, sparse, pattern).Failure? <==>
      || (layer.Some? && layer.value != "" && layer.value !in a.layers)
      || (sparse && pattern == "" && |a.obs| > 0)
  {
  }

  /** Step 5 as written. The dense table is built from the genes-by-cells transpose, yet its
      columns are labelled with the gene names: pandas refuses those labels unless there are as
      many genes as cells, and when there are, each table row is a gene and the cell barcodes
      are written beside the genes in order. */
  function ExportAsWritten(a: AnnData, layer: Option<string>, sparse: bool, pattern: string): (r: Result<Artifact, Error>)
    requires WellFormed(a)
    ensures r.Success? ==> r.value.Sparse? == sparse
    ensures r.Failure? ==>
      || (layer.Some? && r.error == MissingLayer(layer.value))
      || (sparse && r.error == EmptySeparator)
      || (!sparse && r.error == DenseShapeMismatch)
    ensures r.Success? && !sparse ==> |r.value.rows| == |a.varNames| == |a.obs|
  {
    match Counts(a, layer)
    case Failure(e) => Failure(e)
    case Success(m) =>
      if sparse then
        match StripAll(a.obsNames, pattern)
        case Failure(e) => Failure(e)
        case Success(bcs) => Success(Sparse(Transpose(m, |a.varNames|), a.varNames, bcs))
      else if |a.varNames| != |a.obs| then Failure(DenseShapeMismatch)
      else
        var t := Transpose(m, |a.varNames|);
        Success(Dense(a.varNames + [BarcodeColumn],
          seq(|a.varNames|, g requires 0 <= g < |a.varNames| => DenseRow(t[g], a.obsNames[g]))))
  }

  /** The two versions agree in sparse mode. In dense mode the code as written stops whenever
      the gene count differs from the cell count (one cell and two genes suffice), where the
      corrected export writes one row per cell; with equal counts the written row `g` holds gene
      `g` across all cells, labelled with the barcode of cell `g`. */
  lemma DenseTransposedAsWritten(a: AnnData, layer: Option<string>, pattern: string)
    requires WellFormed(a)
    requires Counts(a, layer).Success?
    ensures ExportAsWritten(a, layer, true, pattern) == Export(a, layer, true, pattern)
    ensures |a.varNames| != |a.obs| ==>
      ExportAsWritten(a, layer, false, pattern) == Failure(DenseShapeMismatch)
      && Export(a, layer, false, pattern).Success?
    ensures |a.varNames| == |a.obs| ==>
      var e := ExportAsWritten(a, layer, false, pattern).value;
      var m := Counts(a, layer).value;
      && e.Dense? && |e.rows| == |a.varNames|
      && forall g, c :: 0 <= g < |e.rows| && 0 <= c < |a.obs| ==>
           e.rows[g].values[c] == m[c][g] && e.rows[g].barcode == a.obsNames[g]
  {
  }

  /** As written, the export stops for an unknown layer, for an empty suffix pattern in sparse
      mode, and in dense mode whenever the gene count differs from the cell count. */
  lemma ExportAsWrittenFailsIff(a: AnnData, layer: Option<string>, sparse: bool, pattern: string)
    requires WellFormed(a)
    ensures ExportAsWritten(a, layer, sparse, pattern).Failure? <==>
      || (layer.Some? && layer.value != "" && layer.value !in a.layers)
      || (sparse && pattern == "" && |a.obs| > 0)
      || (!sparse && |a.varNames| != |a.obs|)
  {
  }
}

=== FILE: metadata.dfy ===
/** The per-sample metadata table (prepare_viz.py, step 4): the observation rows gain a
    `barcode` and a `cluster` column, and the tissue-position rows are inner-joined with them
    on `barcode`, tissue positions on the left. */
module Metadata {
  import opened Wrappers
  import opened Errors
  import opened Values
  import opened Barcodes

  type ObsRow = map<string, Value>

  /** One row of `tissue_positions_list.csv`, whose six columns are named by position. */
  datatype SpotRow = SpotRow(barcode: string, inTissue: int, arrayRow: int, arrayCol: int,
                             pxlRowInFullres: int, pxlColInFullres: int)

  /** One row of the joined table: the tissue-position fields followed by the observation fields. */
  datatype SpotRecord = SpotRecord(spot: SpotRow, obs: ObsRow)

  const BarcodeColumn := "barcode"
  const ClusterColumn := "cluster"

  /** The `cluster` value of a row whose `barcode` is already set: a copy of the cluster column
      when the table has one, else 1. The `cluster_col in metadata.columns` test runs after the
      `barcode` column is added, so a cluster column named `barcode` copies the stripped barcode. */
  function ClusterValue(row: ObsRow, columns: set<string>, clusterCol: string): (r: Value)
    requires BarcodeColumn in row
    requires clusterCol in columns ==> clusterCol in row
    ensures clusterCol in columns ==> r == row[clusterCol]
    ensures clusterCol == BarcodeColumn ==> r == row[BarcodeColumn]
    ensures clusterCol !in columns && clusterCol != BarcodeColumn ==> r == Num(1)
  {
    if clusterCol in columns || clusterCol == BarcodeColumn then row[clusterCol] else Num(1)
  }

  /** Adds the stripped `barcode` and the derived `cluster` to every observation row; all other
      columns are kept. An empty suffix pattern stops the run when there is a row to strip. */
  function Annotate(index: seq<string>, rows: seq<ObsRow>, columns: set<string>, pattern: string,
                    clusterCol: string): (r: Result<seq<ObsRow>, Error>)
    requires |index| == |rows|
    requires forall i :: 0 <= i < |rows| ==> rows[i].Keys == columns
    ensures r.Failure? <==> pattern == "" && |rows| > 0
    ensures r.Success? ==> |r.value| == |rows|
    ensures r.Success? ==> forall i :: 0 <= i < |rows| ==>
      && r.value[i].Keys == columns + {BarcodeColumn, ClusterColumn}
      && r.value[i][BarcodeColumn] == Text(StripSuffix(index[i], pattern).value)
      && (forall c :: c in columns && c != BarcodeColumn && c != ClusterColumn ==> r.value[i][c] == rows[i][c])
  {
    match StripAll(index, pattern)
    case Failure(e) => Failure(e)
    case Success(bcs) =>
      Success(seq(|rows|, i requires 0 <= i < |rows| =>
        var withBarcode := rows[i][BarcodeColumn := Text(bcs[i])];
        withBarcode[ClusterColumn := ClusterValue(withBarcode, columns, clusterCol)]))
  }

  /** The cluster of every annotated row: the cluster column's value when it exists, else 1. */
  lemma AnnotateCluster(index: seq<string>, rows: seq<ObsRow>, columns: set<string>, pattern: string,
                        clusterCol: string, i: nat)
    requires |index| == |rows| && i < |rows|
    requires forall k :: 0 <= k < |rows| ==> rows[k].Keys == columns
    requires pattern != ""
    requires clusterCol != BarcodeColumn
    ensures var r := Annotate(index, rows, columns, pattern, clusterCol).value;
      r[i][ClusterColumn] == if clusterCol in columns then rows[i][clusterCol] else Num(1)
  {
  }

  predicate SameBarcode(l: SpotRow, o: ObsRow) {
    BarcodeColumn in o && o[BarcodeColumn] == Text(l.barcode)
  }

  /** The observation rows matching one tissue-position row, in observation order. */
  function Matches(l: SpotRow, right: seq<ObsRow>): (r: seq<SpotRecord>)
    ensures forall rec :: rec in r ==> rec.spot == l && rec.obs in right && SameBarcode(l, rec.obs)
    ensures forall o :: o in right && SameBarcode(l, o) ==> SpotRecord(l, o) in r
  {
    if right == [] then []
    else (if SameBarcode(l, right[0]) then [SpotRecord(l, right[0])] else []) + Matches(l, right[1..])
  }

  /** `left.merge(right, how='inner', on='barcode')`: for each tissue-position row in turn, one
      record per observation row with the same barcode. Unmatched rows on either side are dropped. */
  function InnerJoin(left: seq<SpotRow>, right: seq<ObsRow>): (r: seq<SpotRecord>)
    ensures forall rec :: rec in r ==> rec.spot in left && rec.obs in right && SameBarcode(rec.spot, rec.obs)
    ensures forall l, o :: l in left && o in right && SameBarcode(l, o) ==> SpotRecord(l, o) in r
  {
    if left == [] then [] else Matches(left[0], right) + InnerJoin(left[1..], right)
  }

  /** Records follow the order of the tissue-position table. */
  lemma {:induction false} JoinFollowsLeftOrder(a: seq<SpotRow>, b: seq<SpotRow>, right: seq<ObsRow>)
    ensures InnerJoin(a + b, right) == InnerJoin(a, right) + InnerJoin(b, right)
  {
    if a == [] {
      assert a + b == b;
    } else {
      assert (a + b)[0] == a[0];
      assert (a + b)[1..] == a[1..] + b;
      JoinFollowsLeftOrder(a[1..], b, right);
    }
  }

  predicate HasBarcodeIn(o: ObsRow, keys: set<string>) {
    BarcodeColumn in o && o[BarcodeColumn].Text? && o[BarcodeColumn].s in keys
  }

  /** The number of observation rows whose barcode is one of `keys`. */
  function CountIn(right: seq<ObsRow>, keys: set<string>): (n: nat)
    ensures n <= |right|
  {
    if right == [] then 0
    else (if HasBarcodeIn(right[0], keys) then 1 else 0) + CountIn(right[1..], keys)
  }

  lemma {:induction false} CountInUnion(right: seq<ObsRow>, b: string, keys: set<string>)
    requires b !in keys
    ensures CountIn(right, {b} + keys) == CountIn(right, {b}) + CountIn(right, keys)
  {
    if right != [] { CountInUnion(right[1..], b, keys); }
  }

  lemma {:induction false} MatchesCount(l: SpotRow, right: seq<ObsRow>)
    ensures |Matches(l, right)| == CountIn(right, {l.barcode})
  {
    if right != [] { MatchesCount(l, right[1..]); }
  }

  function SpotBarcodes(left: seq<SpotRow>): set<string> {
    set l | l in left :: l.barcode
  }

  predicate UniqueSpotBarcodes(left: seq<SpotRow>) {
    forall i, j :: 0 <= i < j < |left| ==> left[i].barcode != left[j].barcode
  }

  predicate UniqueObsBarcodes(right: seq<ObsRow>) {
    forall i, j :: 0 <= i < j < |right| && BarcodeColumn in right[i] && BarcodeColumn in right[j] ==>
      right[i][BarcodeColumn] != right[j][BarcodeColumn]
  }

  lemma {:induction false} CountInNothing(right: seq<ObsRow>)
    ensures CountIn(right, {}) == 0
  {
    if right != [] { CountInNothing(right[1..]); }
  }

  lemma {:induction false} JoinCount(left: seq<SpotRow>, right: seq<ObsRow>)
    requires UniqueSpotBarcodes(left)
    ensures |InnerJoin(left, right)| == CountIn(right, SpotBarcodes(left))
  {
    if left == [] {
      assert SpotBarcodes(left) == {};
      CountInNothing(right);
    } else {
      JoinCount(left[1..], right);
      MatchesCount(left[0], right);
      assert SpotBarcodes(left) == {left[0].barcode} + SpotBarcodes(left[1..]) by {
        assert left == [left[0]] + left[1..];
      }
      assert left[0].barcode !in SpotBarcodes(left[1..]) by {
        forall l | l in left[1..] ensures l.barcode != left[0].barcode {
          var j :| 0 <= j < |left[1..]| && left[1..][j] == l;
          assert left[j + 1] == l;
        }
      }
      CountInUnion(right, left[0].barcode, SpotBarcodes(left[1..]));
    }
  }

  lemma {:induction false} NoneMatch(right: seq<ObsRow>, b: string)
    requires forall o :: o in right ==> !HasBarcodeIn(o, {b})
    ensures CountIn(right, {b}) == 0
  {
    if right != [] { NoneMatch(right[1..], b); }
  }

  lemma {:induction false} UniqueMatchesAtMostOne(l: SpotRow, right: seq<ObsRow>)
    requires UniqueObsBarcodes(right)
    ensures |Matches(l, right)| <= 1
  {
    MatchesCount(l, right);
    if right != [] {
      UniqueMatchesAtMostOne(l, right[1..]);
      if HasBarcodeIn(right[0], {l.barcode}) {
        forall o | o in right[1..] ensures !HasBarcodeIn(o, {l.barcode}) {
          var j :| 0 <= j < |right[1..]| && right[1..][j] == o;
          assert right[j + 1] == o;
        }
        NoneMatch(right[1..], l.barcode);
      }
      MatchesCount(l, right[1..]);
    }
  }

  lemma {:induction false} JoinBoundedByLeft(left: seq<SpotRow>, right: seq<ObsRow>)
    requires UniqueObsBarcodes(right)
    ensures |InnerJoin(left, right)| <= |left|
  {
    if left != [] {
      UniqueMatchesAtMostOne(left[0], right);
      JoinBoundedByLeft(left[1..], right);
    }
  }

  /** With unique barcodes on both sides the joined table has at most as many rows as the
      smaller input; rows present on only one side are dropped without an error. */
  lemma JoinSize(left: seq<SpotRow>, right: seq<ObsRow>)
    requires UniqueSpotBarcodes(left) && UniqueObsBarcodes(right)
    ensures |InnerJoin(left, right)| <= |left|
    ensures |InnerJoin(left, right)| <= |right|
  {
    JoinBoundedByLeft(left, right);
    JoinCount(left, right);
  }
}

=== FILE: naming.dfy ===
/** The export directory name derived from a sample id (prepare_viz.py, step 0). */
module Naming {
  import opened Wrappers
  import opened Errors
  import opened Text

  /** A name the step accepts as it is: no spaces, at least two characters, not led by a digit. */
  predicate ValidDirName(n: string) {
    ' ' !in n && |n| >= 2 && !IsDigit(n[0])
  }

  /** Spaces are removed; an `X` is put in front of a name that starts with a digit, and
      again in front of a name that is then still one character long. An id made only of
      spaces fails, because its first character is read from an empty string. */
  function DirName(id: string): (r: Result<string, Error>)
    ensures r.Failure? <==> Without(id, ' ') == ""
    ensures r.Failure? ==> r.error == EmptyDirName
    ensures r.Success? ==> ValidDirName(r.value)
  {
    var stripped := Without(id, ' ');
    if stripped == "" then Failure(EmptyDirName)
    else
      var named := if IsDigit(stripped[0]) then "X" + stripped else stripped;
      Success(if |named| == 1 then "X" + named else named)
  }

  /** The name is the id without its spaces, with at most one `X` in front. */
  lemma DirNameShape(id: string)
    requires DirName(id).Success?
    ensures DirName(id).value in {Without(id, ' '), "X" + Without(id, ' ')}
    ensures DirName(id).value == "X" + Without(id, ' ') <==>
      IsDigit(Without(id, ' ')[0]) || |Without(id, ' ')| == 1
  {
  }

  /** A name that is already valid is kept unchanged. */
  lemma DirNameKeepsValid(n: string)
    requires ValidDirName(n)
    ensures DirName(n) == Success(n)
  {
  }

  /** Deriving the name twice gives the same name as deriving it once. */
  lemma DirNameIdempotent(id: string)
    requires DirName(id).Success?
    ensures DirName(DirName(id).value) == DirName(id)
  {
    DirNameKeepsValid(DirName(id).value);
  }

  /** Step 0 as written: with `verbose` set and a name that differs from the id, the notice
      refers to an undefined variable and the run aborts. */
  function DirNameAsWritten(id: string, verbose: bool): (r: Result<string, Error>)
    ensures r.Failure? <==> DirName(id).Failure? || (verbose && DirName(id).value != id)
    ensures r.Success? ==> r == DirName(id)
    ensures DirName(id).Success? && r.Failure? ==> r.error == VerboseNameError
  {
    match DirName(id)
    case Failure(e) => Failure(e)
    case Success(n) => if verbose && n != id then Failure(VerboseNameError) else Success(n)
  }

  /** The sample "2B" from a verbose run shows the defect; the corrected step names it "X2B". */
  lemma VerboseRenameAborts()
    ensures DirNameAsWritten("2B", true) == Failure(VerboseNameError)
    ensures DirName("2B") == Success("X2B")
  {
    assert ' ' !in "2B" by { assert "2B" == ['2', 'B']; }
    assert Without("2B", ' ') == "2B";
    assert "X" + "2B" == "X2B";
  }
}

=== FILE: pipeline.dfy ===
/** The export run (prepare_viz.py:75-311): the sample check, the optional viewer configuration
    update, and the loop that exports every sample in turn. The loop's state is what the Python
    function mutates as it goes: the directories in the export root, the files of the raw-data
    trees, the three cluster lists, and the sample directories written so far. */
module Pipeline {
  import opened Wrappers
  import opened Errors
  import opened Values
  import opened Seqs
  import opened Naming
  import opened Samples
  import opened Assets
  import Metadata
  import opened Expression
  import opened Clusters
  import SampleInfo
  import ViewerConfig

  /** The caller's arguments that the export reads. */
  datatype Options = Options(
    samplesIdCol: string,
    clusterCol: string,
    clusterNames: Option<seq<Value>>,
    clusterGenes: Option<seq<string>>,
    clustColors: Option<seq<string>>,
    layer: Option<string>,
    multisamplePattern: string,
    spatialSubDir: string,
    sampleInfo: Option<seq<SampleInfo.Row>>,
    downloadRepo: bool,
    exportSparse: bool,
    files: ViewerConfig.FileNames,
    configList: Option<ViewerConfig.Config>)

  /** What the run finds outside the matrix: whether the export folder exists, the directory
      names already in it, the paths present in the raw-data trees, the contents of the
      scale-factor and tissue-position files under each data path, the colour palette, and the
      configuration of the downloaded viewer. When the viewer is downloaded, the export folder is
      the `data` folder of the freshly cloned project. */
  datatype World = World(
    exportRootExists: bool,
    exportDirs: set<string>,
    source: set<string>,
    scaleFactors: string -> ScaleFactors,
    positions: string -> seq<Metadata.SpotRow>,
    palette: nat -> seq<string>,
    viewerConfig: ViewerConfig.Config)

  /** Everything written into one sample directory. */
  datatype SampleExport = SampleExport(
    dirName: string,
    dataPath: string,
    scaleFactors: ScaleFactors,
    lowresAsHires: bool,
    sampleInfo: Option<SampleInfo.Row>,
    metadata: seq<Metadata.SpotRecord>,
    expression: Artifact,
    clusters: seq<ClusterRow>)

  datatype LoopState = LoopState(dirs: set<string>, source: set<string>, lists: Lists, done: seq<SampleExport>)

  /** Where the run stopped: the state reached, and the error if one aborted it. Directories and
      files already written stay behind. */
  datatype Outcome = Outcome(state: LoopState, error: Option<Error>)

  /** What the loop reads and never changes: `ids` are the distinct sample ids in order of first
      appearance, `info` the sample table in effect. */
  datatype Run = Run(opts: Options, adata: AnnData, ids: seq<Value>, dataPaths: seq<string>,
                     info: Option<seq<SampleInfo.Row>>, world: World)

  ghost predicate Ready(run: Run) {
    && WellFormed(run.adata)
    && FullPalette(run.world.palette)
    && run.opts.samplesIdCol in run.adata.obsColumns
    && |run.ids| == |run.dataPaths|
  }

  function InitialLists(opts: Options): Lists {
    Lists(opts.clustColors, opts.clusterNames, opts.clusterGenes)
  }

  function Initial(run: Run): LoopState {
    LoopState(run.world.exportDirs, run.world.source, InitialLists(run.opts), [])
  }

  /** The slice of sample `k`: the rows of the full table whose sample column holds its id. */
  function SampleData(run: Run, k: nat): (r: AnnData)
    requires Ready(run) && k < |run.ids|
    ensures WellFormed(r) && r.varNames == run.adata.varNames && r.obsColumns == run.adata.obsColumns
    ensures forall j :: 0 <= j < |r.obs| ==> r.obs[j][run.opts.samplesIdCol] == run.ids[k]
    ensures forall i :: 0 <= i < |run.adata.obs| && run.adata.obs[i][run.opts.samplesIdCol] == run.ids[k] ==>
      run.adata.obs[i] in r.obs
  {
    var rows := RowsOf(Column(run.adata, run.opts.samplesIdCol), run.ids[k]);
    var s := SampleSlice(run.adata, run.opts.samplesIdCol, run.ids[k]);
    assert forall i :: 0 <= i < |run.adata.obs| && run.adata.obs[i][run.opts.samplesIdCol] == run.ids[k] ==>
      run.adata.obs[i] in s.obs by {
      forall i | 0 <= i < |run.adata.obs| && run.adata.obs[i][run.opts.samplesIdCol] == run.ids[k]
        ensures run.adata.obs[i] in s.obs
      {
        assert i in rows;
        var j :| 0 <= j < |rows| && rows[j] == i;
        assert s.obs[j] == run.adata.obs[i];
      }
    }
    s
  }

  /** Step 4 for sample `k`: the tissue positions of its data path joined with its annotated
      slice. */
  function SampleMetadata(run: Run, k: nat): (r: Result<seq<Metadata.SpotRecord>, Error>)
    requires Ready(run) && k < |run.ids|
    ensures r.Failure? <==> run.opts.multisamplePattern == "" && |SampleData(run, k).obs| > 0
    ensures r.Success? ==> var s := SampleData(run, k);
      var annotated := Metadata.Annotate(s.obsNames, s.obs, s.obsColumns, run.opts.multisamplePattern, run.opts.clusterCol).value;
      forall rec :: rec in r.value ==>
        rec.spot in run.world.positions(run.dataPaths[k]) && rec.obs in annotated && Metadata.SameBarcode(rec.spot, rec.obs)
  {
    var s := SampleData(run, k);
    var obs :- Metadata.Annotate(s.obsNames, s.obs, s.obsColumns, run.opts.multisamplePattern, run.opts.clusterCol);
    Success(Metadata.InnerJoin(run.world.positions(run.dataPaths[k]), obs))
  }

  /** Step 5 for sample `k`, on its slice. */
  function SampleExpression(run: Run, k: nat): (r: Result<Artifact, Error>)
    requires Ready(run) && k < |run.ids|
    ensures r.Failure? <==>
      || (run.opts.layer.Some? && run.opts.layer.value != "" && run.opts.layer.value !in run.adata.layers)
      || (run.opts.exportSparse && run.opts.multisamplePattern == "" && |SampleData(run, k).obs| > 0)
    ensures r.Success? ==> r.value.Sparse? == run.opts.exportSparse
  {
    ExportFailsIff(SampleData(run, k), run.opts.layer, run.opts.exportSparse, run.opts.multisamplePattern);
    Export(SampleData(run, k), run.opts.layer, run.opts.exportSparse, run.opts.multisamplePattern)
  }

  /** The cluster column of the full observation table, with its categories when it is
      categorical, when the table has one. */
  function ClusterColumnOf(run: Run): (r: Option<ClusterColumn>)
    requires Ready(run)
    ensures r.Some? <==> run.opts.clusterCol in run.adata.obsColumns
    ensures r.Some? ==> Coherent(r.value) && |r.value.values| == |run.adata.obs|
  {
    var a, col := run.adata, run.opts.clusterCol;
    if col in a.obsColumns then
      Some(ClusterColumn(Column(a, col), if col in a.categories then Some(a.categories[col]) else None))
    else None
  }

  /** Step 6 with the lists as they stand when the sample is reached. */
  function SampleClusters(run: Run, lists: Lists): (r: Result<(seq<ClusterRow>, Lists), Error>)
    requires Ready(run)
    ensures r.Failure? ==> r.error == UnorderableLabels || r.error == ClusterLengthMismatch
    ensures r.Success? ==> Labels(ClusterColumnOf(run)).Success?
    ensures r.Success? ==> var labels := Labels(ClusterColumnOf(run)).value;
      |r.value.0| == |labels| && forall i :: 0 <= i < |labels| ==> r.value.0[i].cluster == labels[i]
  {
    var labels :- Labels(ClusterColumnOf(run));
    Table(labels, lists, run.world.palette)
  }

  datatype Written = Written(info: Option<SampleInfo.Row>, metadata: seq<Metadata.SpotRecord>,
                             expression: Artifact, clusters: seq<ClusterRow>, lists: Lists)

  /** Steps 3 to 6, which read no file state. */
  function LaterSteps(run: Run, k: nat, lists: Lists): (r: Result<Written, Error>)
    requires Ready(run) && k < |run.ids|
    ensures r.Success? <==>
      && SampleInfo.RowFor(run.info, k).Success? && SampleMetadata(run, k).Success?
      && SampleExpression(run, k).Success? && SampleClusters(run, lists).Success?
  {
    var info :- SampleInfo.RowFor(run.info, k);
    var metadata :- SampleMetadata(run, k);
    var expression :- SampleExpression(run, k);
    var table :- SampleClusters(run, lists);
    Success(Written(info, metadata, expression, table.0, table.1))
  }

  /** The scale-factor record written for a sample is its data path's record, with the
      low-resolution scale as high-resolution scale when the low-resolution image stood in. */
  predicate AssetsOf(run: Run, e: SampleExport) {
    var sf := run.world.scaleFactors(e.dataPath);
    && (!e.lowresAsHires ==> e.scaleFactors == sf)
    && (e.lowresAsHires ==> LowresScale in sf && e.scaleFactors == sf[HiresScale := sf[LowresScale]])
  }

  /** One pass of the loop body for sample `k`: name and create its directory (which must not
      exist yet), resolve its spatial files, then steps 3 to 6. */
  function ExportSample(run: Run, k: nat, st: LoopState): (o: Outcome)
    requires Ready(run) && k < |run.ids|
    ensures st.dirs <= o.state.dirs && st.source <= o.state.source
    ensures o.error.Some? ==> o.state.done == st.done && o.state.lists == st.lists
    ensures o.error.None? ==> |o.state.done| == |st.done| + 1 && o.state.done[..|st.done|] == st.done
    ensures o.error.None? ==> AssetsOf(run, o.state.done[|st.done|])
  {
    var id := run.ids[k];
    if !id.Text? then Outcome(st, Some(SampleIdNotText))
    else match DirName(id.s)
    case Failure(e) => Outcome(st, Some(e))
    case Success(name) =>
      if name in st.dirs then Outcome(st, Some(DirectoryExists(name)))
      else
        var created := st.(dirs := st.dirs + {name});
        var path := run.dataPaths[k];
        match Resolve(created.source, PathsFor(path, run.opts.spatialSubDir), run.world.scaleFactors(path))
        case Failure(e) => Outcome(created, Some(e))
        case Success(res) =>
          var resolved := created.(source := res.source);
          match LaterSteps(run, k, st.lists)
          case Failure(e) => Outcome(resolved, Some(e))
          case Success(w) =>
            var exported := SampleExport(name, path, res.scaleFactors, res.lowresAsHires, w.info,
                                       w.metadata, w.expression, w.clusters);
            Outcome(resolved.(lists := w.lists, done := st.done + [exported]), None)
  }

  /** The loop from sample `i` on, stopping at the first error. */
  function ExportFrom(run: Run, i: nat, st: LoopState): (o: Outcome)
    requires Ready(run) && i <= |run.ids|
    ensures st.dirs <= o.state.dirs && st.source <= o.state.source
    ensures |st.done| <= |o.state.done| && o.state.done[..|st.done|] == st.done
    ensures o.error.None? ==> |o.state.done| == |st.done| + |run.ids| - i
    ensures forall j :: |st.done| <= j < |o.state.done| ==> AssetsOf(run, o.state.done[j])
    decreases |run.ids| - i
  {
    if i == |run.ids| then Outcome(st, None)
    else
      var o := ExportSample(run, i, st);
      if o.error.Some? then o
      else
        var rest := ExportFrom(run, i + 1, o.state);
        assert forall j :: |st.done| <= j < |rest.state.done| ==> AssetsOf(run, rest.state.done[j]) by {
          forall j | |st.done| <= j < |rest.state.done| ensures AssetsOf(run, rest.state.done[j]) {
            if j == |st.done| {
              assert rest.state.done[j] == rest.state.done[..|o.state.done|][j] == o.state.done[j];
            }
          }
        }
        rest
  }

  /** The `for i, sample_id in enumerate(samples_ids)` loop. */
  method ExportSamples(run: Run) returns (out: Outcome)
    requires Ready(run)
    ensures out == ExportFrom(run, 0, Initial(run))
  {
    var st := Initial(run);
    var i := 0;
    while i < |run.ids|
      invariant 0 <= i <= |run.ids|
      invariant ExportFrom(run, i, st) == ExportFrom(run, 0, Initial(run))
    {
      var o := ExportSample(run, i, st);
      if o.error.Some? {
        return o;
      }
      st := o.state;
      i := i + 1;
    }
    out := Outcome(st, None);
  }

  function DirNames(done: seq<SampleExport>): set<string> {
    set e | e in done :: e.dirName
  }

  /** The directories made so far: one per finished sample, named after its id, new to the export
      root and distinct from each other. */
  ghost predicate NamesSoFar(run: Run, st: LoopState, i: nat)
    requires Ready(run)
  {
    && i <= |run.ids| && |st.done| == i
    && (forall k :: 0 <= k < i ==> run.ids[k].Text? && DirName(run.ids[k].s) == Success(st.done[k].dirName))
    && (forall k, l :: 0 <= k < l < i ==> st.done[k].dirName != st.done[l].dirName)
    && (forall k :: 0 <= k < i ==> st.done[k].dirName !in run.world.exportDirs)
    && st.dirs == run.world.exportDirs + DirNames(st.done)
  }

  /** The contents written so far: each finished sample's own data path and slice. */
  ghost predicate ContentsSoFar(run: Run, st: LoopState, i: nat)
    requires Ready(run) && i <= |run.ids| && |st.done| == i
  {
    && (forall k :: 0 <= k < i ==> st.done[k].dataPath == run.dataPaths[k])
    && (forall k :: 0 <= k < i ==> SampleInfo.RowFor(run.info, k) == Success(st.done[k].sampleInfo))
    && (forall k :: 0 <= k < i ==> SampleMetadata(run, k) == Success(st.done[k].metadata))
    && (forall k :: 0 <= k < i ==> SampleExpression(run, k) == Success(st.done[k].expression))
  }

  /** The cluster lists are filled in by the first sample and every sample gets its table. */
  ghost predicate ClustersSoFar(run: Run, st: LoopState, i: nat)
    requires Ready(run) && |st.done| == i
  {
    && (i == 0 ==> st.lists == InitialLists(run.opts))
    && (i > 0 ==> SampleClusters(run, InitialLists(run.opts)).Success?
                  && st.lists == SampleClusters(run, InitialLists(run.opts)).value.1
                  && forall k :: 0 <= k < i ==> st.done[k].clusters == SampleClusters(run, InitialLists(run.opts)).value.0)
  }

  /** What the loop has established after `i` samples. */
  ghost predicate Progress(run: Run, st: LoopState, i: nat)
    requires Ready(run)
  {
    && NamesSoFar(run, st, i)
    && ContentsSoFar(run, st, i)
    && ClustersSoFar(run, st, i)
  }

  /** The state after a sample that was exported without an error. */
  lemma StepShape(run: Run, k: nat, st: LoopState)
    requires Ready(run) && k < |run.ids|
    requires ExportSample(run, k, st).error.None?
    ensures run.ids[k].Text? && DirName(run.ids[k].s).Success?
    ensures DirName(run.ids[k].s).value !in st.dirs
    ensures Resolve(st.source, PathsFor(run.dataPaths[k], run.opts.spatialSubDir), run.world.scaleFactors(run.dataPaths[k])).Success?
    ensures LaterSteps(run, k, st.lists).Success?
    ensures var o := ExportSample(run, k, st);
      var name := DirName(run.ids[k].s).value;
      var res := Resolve(st.source, PathsFor(run.dataPaths[k], run.opts.spatialSubDir), run.world.scaleFactors(run.dataPaths[k])).value;
      var w := LaterSteps(run, k, st.lists).value;
      && o.state.dirs == st.dirs + {name}
      && o.state.source == res.source
      && o.state.lists == w.lists
      && o.state.done == st.done + [SampleExport(name, run.dataPaths[k], res.scaleFactors, res.lowresAsHires,
                                                 w.info, w.metadata, w.expression, w.clusters)]
  {
  }

  /** The state after exporting sample `i` as `exported`, with lists `lists` and source `source`. */
  function Advance(st: LoopState, exported: SampleExport, source: set<string>, lists: Lists): LoopState {
    LoopState(st.dirs + {exported.dirName}, source, lists, st.done + [exported])
  }

  lemma StepNames(run: Run, st: LoopState, i: nat, exported: SampleExport, source: set<string>, lists: Lists)
    requires Ready(run) && i < |run.ids| && NamesSoFar(run, st, i)
    requires run.ids[i].Text? && DirName(run.ids[i].s) == Success(exported.dirName)
    requires exported.dirName !in st.dirs
    ensures NamesSoFar(run, Advance(st, exported, source, lists), i + 1)
  {
    var next := Advance(st, exported, source, lists);
    var name := exported.dirName;
    assert next.done == st.done + [exported];
    assert DirNames(next.done) == DirNames(st.done) + {name} by {
      assert forall e :: e in next.done <==> e in st.done || e == exported;
    }
    forall k | 0 <= k < i + 1
      ensures run.ids[k].Text? && DirName(run.ids[k].s) == Success(next.done[k].dirName)
      ensures next.done[k].dirName !in run.world.exportDirs
    {
      if k < i { assert next.done[k] == st.done[k]; }
    }
    forall k, l | 0 <= k < l < i + 1 ensures next.done[k].dirName != next.done[l].dirName {
      assert next.done[k] == st.done[k];
      if l < i {
        assert next.done[l] == st.done[l];
      } else {
        assert st.done[k] in st.done;
      }
    }
  }

  lemma StepContents(run: Run, st: LoopState, i: nat, exported: SampleExport, source: set<string>, lists: Lists)
    requires Ready(run) && i < |run.ids| && |st.done| == i && ContentsSoFar(run, st, i)
    requires exported.dataPath == run.dataPaths[i]
    requires SampleInfo.RowFor(run.info, i) == Success(exported.sampleInfo)
    requires SampleMetadata(run, i) == Success(exported.metadata)
    requires SampleExpression(run, i) == Success(exported.expression)
    ensures ContentsSoFar(run, Advance(st, exported, source, lists), i + 1)
  {
    var next := Advance(st, exported, source, lists);
    forall k | 0 <= k < i + 1
      ensures next.done[k].dataPath == run.dataPaths[k]
      ensures SampleInfo.RowFor(run.info, k) == Success(next.done[k].sampleInfo)
      ensures SampleMetadata(run, k) == Success(next.done[k].metadata)
      ensures SampleExpression(run, k) == Success(next.done[k].expression)
    {
      if k < i { assert next.done[k] == st.done[k]; }
    }
  }

  lemma StepClusters(run: Run, st: LoopState, i: nat, exported: SampleExport, source: set<string>, lists: Lists)
    requires Ready(run) && |st.done| == i && ClustersSoFar(run, st, i)
    requires SampleClusters(run, st.lists) == Success((exported.clusters, lists))
    ensures ClustersSoFar(run, Advance(st, exported, source, lists), i + 1)
  {
    if i > 0 {
      TableStable(Labels(ClusterColumnOf(run)).value, InitialLists(run.opts), run.world.palette);
    }
  }

  /** Steps 3 to 6 succeed only when each of them does. */
  lemma LaterStepsParts(run: Run, k: nat, lists: Lists)
    requires Ready(run) && k < |run.ids|
    requires LaterSteps(run, k, lists).Success?
    ensures var w := LaterSteps(run, k, lists).value;
      && SampleInfo.RowFor(run.info, k) == Success(w.info)
      && SampleMetadata(run, k) == Success(w.metadata)
      && SampleExpression(run, k) == Success(w.expression)
      && SampleClusters(run, lists) == Success((w.clusters, w.lists))
  {
  }

  lemma StepProgress(run: Run, st: LoopState, i: nat)
    requires Ready(run) && i < |run.ids| && Progress(run, st, i)
    requires ExportSample(run, i, st).error.None?
    ensures Progress(run, ExportSample(run, i, st).state, i + 1)
  {
    StepShape(run, i, st);
    var path := run.dataPaths[i];
    var name := DirName(run.ids[i].s).value;
    var res := Resolve(st.source, PathsFor(path, run.opts.spatialSubDir), run.world.scaleFactors(path)).value;
    var w := LaterSteps(run, i, st.lists).value;
    LaterStepsParts(run, i, st.lists);
    var exported := SampleExport(name, path, res.scaleFactors, res.lowresAsHires,
                                 w.info, w.metadata, w.expression, w.clusters);
    var next := Advance(st, exported, res.source, w.lists);
    assert ExportSample(run, i, st).state == next;
    StepNames(run, st, i, exported, res.source, w.lists);
    StepContents(run, st, i, exported, res.source, w.lists);
    StepClusters(run, st, i, exported, res.source, w.lists);
    assert Progress(run, next, i + 1);
  }

  /** One turn of the loop: a sample exported without error hands its state to the next. */
  lemma ExportFromStep(run: Run, i: nat, st: LoopState)
    requires Ready(run) && i < |run.ids|
    requires ExportFrom(run, i, st).error.None?
    ensures ExportSample(run, i, st).error.None?
    ensures ExportFrom(run, i, st) == ExportFrom(run, i + 1, ExportSample(run, i, st).state)
  {
  }

  lemma {:induction false} RunProgress(run: Run, st: LoopState, i: nat)
    requires Ready(run) && i <= |run.ids| && Progress(run, st, i)
    requires ExportFrom(run, i, st).error.None?
    ensures Progress(run, ExportFrom(run, i, st).state, |run.ids|)
    decreases |run.ids| - i
  {
    if i == |run.ids| {
      assert ExportFrom(run, i, st).state == st;
    } else {
      ExportFromStep(run, i, st);
      var next := ExportSample(run, i, st).state;
      StepProgress(run, st, i);
      RunProgress(run, next, i + 1);
    }
  }

  /** A run that finishes has exported every sample, in order, each with its own data path,
      under a fresh directory named after its id; no two samples share a directory; every sample
      carries the scale-factor record steps 1-2 resolve for its data path, its own row of the
      sample table, the metadata and expression of its own slice, and the same cluster table,
      the one built from the caller's lists. */
  lemma RunExportsEverySample(run: Run)
    requires Ready(run)
    requires ExportFrom(run, 0, Initial(run)).error.None?
    ensures var st := ExportFrom(run, 0, Initial(run)).state;
      && |st.done| == |run.ids|
      && (forall k :: 0 <= k < |run.ids| ==>
            run.ids[k].Text? && DirName(run.ids[k].s) == Success(st.done[k].dirName)
            && st.done[k].dataPath == run.dataPaths[k]
            && SampleInfo.RowFor(run.info, k) == Success(st.done[k].sampleInfo)
            && SampleMetadata(run, k) == Success(st.done[k].metadata)
            && SampleExpression(run, k) == Success(st.done[k].expression)
            && st.done[k].dirName !in run.world.exportDirs)
      && (forall k, l :: 0 <= k < l < |run.ids| ==> st.done[k].dirName != st.done[l].dirName)
      && (|run.ids| > 0 ==> SampleClusters(run, InitialLists(run.opts)).Success?)
      && (forall k :: 0 <= k < |run.ids| ==> AssetsOf(run, st.done[k]))
      && (forall k :: 0 <= k < |run.ids| ==> st.done[k].clusters == SampleClusters(run, InitialLists(run.opts)).value.0)
      && st.dirs == run.world.exportDirs + DirNames(st.done)
  {
    RunProgress(run, Initial(run), 0);
    var st := ExportFrom(run, 0, Initial(run)).state;
    assert NamesSoFar(run, st, |run.ids|);
    assert ContentsSoFar(run, st, |run.ids|);
    assert ClustersSoFar(run, st, |run.ids|);
  }

  /** Two samples whose ids give the same directory name stop the run. */
  lemma CollidingNamesAbort(run: Run, k: nat, l: nat)
    requires Ready(run) && k < l < |run.ids|
    requires run.ids[k].Text? && run.ids[l].Text?
    requires DirName(run.ids[k].s).Success? && DirName(run.ids[k].s) == DirName(run.ids[l].s)
    ensures ExportFrom(run, 0, Initial(run)).error.Some?
  {
    if ExportFrom(run, 0, Initial(run)).error.None? {
      RunExportsEverySample(run);
    }
  }

  /** When the caller supplies no colours, names or marker genes, step 6 stops a run only for a
      plain cluster column mixing numbers and strings. */
  lemma DefaultClustersNeverFail(run: Run)
    requires Ready(run)
    requires !Supplied(run.opts.clustColors) && !Supplied(run.opts.clusterNames) && !Supplied(run.opts.clusterGenes)
    ensures SampleClusters(run, InitialLists(run.opts)).Failure? ==>
      SampleClusters(run, InitialLists(run.opts)).error == UnorderableLabels
  {
    if Labels(ClusterColumnOf(run)).Success? {
      DefaultsNeverFail(Labels(ClusterColumnOf(run)).value, InitialLists(run.opts), run.world.palette);
    }
  }

  /** Exporting into a folder that still holds the first sample's directory stops at once,
      before anything is written. This is what a second run without the viewer download meets;
      with the download the project folder is deleted and cloned afresh first, so `exportDirs`
      then holds only what the clone brings. */
  lemma RerunAborts(run: Run)
    requires Ready(run) && |run.ids| > 0
    requires run.ids[0].Text? && DirName(run.ids[0].s).Success?
    requires DirName(run.ids[0].s).value in run.world.exportDirs
    ensures ExportFrom(run, 0, Initial(run)) ==
      Outcome(Initial(run), Some(DirectoryExists(DirName(run.ids[0].s).value)))
  {
  }

  /** What the whole function produces: the configuration written to the viewer (when it is
      downloaded) and the outcome of the export. */
  datatype Report = Report(config: Option<ViewerConfig.Config>, outcome: Outcome)

  function Untouched(opts: Options, w: World): LoopState {
    LoopState(w.exportDirs, w.source, InitialLists(opts), [])
  }

  /** The distinct sample ids, in order of first appearance. */
  function SampleIds(adata: AnnData, col: string): (r: seq<Value>)
    requires WellFormed(adata) && col in adata.obsColumns
    ensures Distinct(r)
    ensures forall v :: v in r <==> v in Column(adata, col)
    ensures forall i, j :: 0 <= i < j < |r| ==> FirstIndex(Column(adata, col), r[i]) < FirstIndex(Column(adata, col), r[j])
  {
    UniqueFirstAppearance(Column(adata, col));
    Unique(Column(adata, col))
  }

  /** The sample table in effect: when the viewer is downloaded and the caller gave none, the
      one-column table of sample ids. */
  function EffectiveInfo(opts: Options, ids: seq<Value>): (r: Option<seq<SampleInfo.Row>>)
    ensures opts.sampleInfo.Some? ==> r == opts.sampleInfo
    ensures opts.sampleInfo.None? && !opts.downloadRepo ==> r.None?
    ensures opts.sampleInfo.None? && opts.downloadRepo ==>
      r.Some? && |r.value| == |ids| && forall i :: 0 <= i < |ids| ==> r.value[i] == [ids[i]]
  {
    if opts.downloadRepo && opts.sampleInfo.None? then Some(SampleInfo.DefaultInfo(ids)) else opts.sampleInfo
  }

  function PrepareOutcome(opts: Options, adata: AnnData, dataPaths: seq<string>, w: World): (r: Report)
    requires WellFormed(adata) && FullPalette(w.palette)
    ensures opts.samplesIdCol !in adata.obsColumns ==>
      r == Report(None, Outcome(Untouched(opts, w), Some(MissingSampleColumn(opts.samplesIdCol))))
    ensures !w.exportRootExists ==> r.config.None? && r.outcome.error.Some? && r.outcome.state.done == []
    ensures r.config.Some? ==>
      opts.downloadRepo && r.config.value == ViewerConfig.Updated(w.viewerConfig, opts.configList, opts.files, opts.clusterCol)
    ensures r.outcome.error.None? ==> opts.samplesIdCol in adata.obsColumns && |r.outcome.state.done| == |dataPaths| > 1
    ensures (&& opts.downloadRepo && opts.samplesIdCol in adata.obsColumns && w.exportRootExists
             && |SampleIds(adata, opts.samplesIdCol)| > 1 && |SampleIds(adata, opts.samplesIdCol)| == |dataPaths|) ==>
      r.config == Some(ViewerConfig.Updated(w.viewerConfig, opts.configList, opts.files, opts.clusterCol))
  {
    if opts.samplesIdCol !in adata.obsColumns then
      Report(None, Outcome(Untouched(opts, w), Some(MissingSampleColumn(opts.samplesIdCol))))
    else
      var ids := SampleIds(adata, opts.samplesIdCol);
      if !(|ids| > 1 && |ids| == |dataPaths|) then
        Report(None, Outcome(Untouched(opts, w), Some(SampleCountMismatch(|ids|, |dataPaths|))))
      else if !w.exportRootExists then
        Report(None, Outcome(Untouched(opts, w), Some(ExportPathMissing)))
      else
        var config := if opts.downloadRepo
          then Some(ViewerConfig.Updated(w.viewerConfig, opts.configList, opts.files, opts.clusterCol))
          else None;
        var run := Run(opts, adata, ids, dataPaths, EffectiveInfo(opts, ids), w);
        Report(config, ExportFrom(run, 0, Initial(run)))
  }

  /** `prepare10x_from_scanpy` without the download, the HTML panel and the server. */
  method Prepare(opts: Options, adata: AnnData, dataPaths: seq<string>, w: World) returns (r: Report)
    requires WellFormed(adata) && FullPalette(w.palette)
    ensures r == PrepareOutcome(opts, adata, dataPaths, w)
  {
    if opts.samplesIdCol !in adata.obsColumns {
      return Report(None, Outcome(Untouched(opts, w), Some(MissingSampleColumn(opts.samplesIdCol))));
    }
    var ids := SampleIds(adata, opts.samplesIdCol);
    if !(|ids| > 1 && |ids| == |dataPaths|) {
      return Report(None, Outcome(Untouched(opts, w), Some(SampleCountMismatch(|ids|, |dataPaths|))));
    }
    if !w.exportRootExists {
      return Report(None, Outcome(Untouched(opts, w), Some(ExportPathMissing)));
    }
    var config: Option<ViewerConfig.Config> := None;
    if opts.downloadRepo {
      var updated := ViewerConfig.UpdateConfig(w.viewerConfig, opts.configList, opts.files, opts.clusterCol);
      config := Some(updated);
    }
    var run := Run(opts, adata, ids, dataPaths, EffectiveInfo(opts, ids), w);
    var outcome := ExportSamples(run);
    r := Report(config, outcome);
  }

  /** The run is refused before any directory is made unless there are at least two distinct
      sample ids and exactly one data path per id. */
  lemma SampleCheck(opts: Options, adata: AnnData, dataPaths: seq<string>, w: World)
    requires WellFormed(adata) && opts.samplesIdCol in adata.obsColumns && FullPalette(w.palette)
    ensures var ids := SampleIds(adata, opts.samplesIdCol);
      var r := PrepareOutcome(opts, adata, dataPaths, w);
      !(|ids| > 1 && |ids| == |dataPaths|) ==>
        r == Report(None, Outcome(Untouched(opts, w), Some(SampleCountMismatch(|ids|, |dataPaths|))))
  {
  }

  /** A finished run has processed the distinct sample ids in order of first appearance, the
      i-th with the i-th data path, and wrote the directory of each. */
  lemma SamplesInFirstAppearanceOrder(opts: Options, adata: AnnData, dataPaths: seq<string>, w: World)
    requires WellFormed(adata) && opts.samplesIdCol in adata.obsColumns && FullPalette(w.palette)
    requires PrepareOutcome(opts, adata, dataPaths, w).outcome.error.None?
    ensures var col := Column(adata, opts.samplesIdCol);
      var ids := SampleIds(adata, opts.samplesIdCol);
      var done := PrepareOutcome(opts, adata, dataPaths, w).outcome.state.done;
      && 1 < |ids| == |dataPaths| == |done|
      && (forall v :: v in col <==> v in ids)
      && (forall i, j :: 0 <= i < j < |ids| ==> FirstIndex(col, ids[i]) < FirstIndex(col, ids[j]))
      && (forall k :: 0 <= k < |done| ==>
            ids[k].Text? && DirName(ids[k].s) == Success(done[k].dirName) && done[k].dataPath == dataPaths[k])
  {
    var ids := SampleIds(adata, opts.samplesIdCol);
    UniqueFirstAppearance(Column(adata, opts.samplesIdCol));
    RunExportsEverySample(Run(opts, adata, ids, dataPaths, EffectiveInfo(opts, ids), w));
  }
}

=== FILE: sample_info.dfy ===
/** The optional per-sample description (prepare_viz.py, step 3): row `i` of the caller's
    table is written for the i-th sample. */
module SampleInfo {
  import opened Wrappers
  import opened Errors
  import opened Values

  /** One row of the sample table, as the values written one per line. */
  type Row = seq<Value>

  /** The row for sample `i`, or nothing when there is no table. A table with no row `i` stops
      the run. Rows are taken by position: the table is taken to carry the default row labels
      0..n-1, under which the label lookup `.loc[i, :]` and the position agree. */
  function RowFor(info: Option<seq<Row>>, i: nat): (r: Result<Option<Row>, Error>)
    ensures info.None? ==> r == Success(None)
    ensures info.Some? ==> (r.Success? <==> i < |info.value|)
    ensures info.Some? && r.Success? ==> r.value == Some(info.value[i])
    ensures r.Failure? ==> r.error == SampleInfoShort
  {
    match info
    case None => Success(None)
    case Some(rows) => if |rows| > i then Success(Some(rows[i])) else Failure(SampleInfoShort)
  }

  /** Step 3 as written: the guard `shape[0] >= i` lets `i == shape[0]` through, and the row
      lookup `.loc[i, :]` then fails with a KeyError instead of the intended message. */
  function RowForAsWritten(info: Option<seq<Row>>, i: nat): (r: Result<Option<Row>, Error>)
    ensures r.Failure? <==> RowFor(info, i).Failure?
    ensures r.Success? ==> r == RowFor(info, i)
    ensures r.Failure? && r != RowFor(info, i) ==> info.Some? && i == |info.value| && r.error == SampleInfoKey(i)
  {
    match info
    case None => Success(None)
    case Some(rows) =>
      if |rows| >= i then
        if i < |rows| then Success(Some(rows[i])) else Failure(SampleInfoKey(i))
      else Failure(SampleInfoShort)
  }

  /** The guard admits the index one past the last row; only there do the two versions differ. */
  lemma GuardAdmitsMissingRow(rows: seq<Row>, i: nat)
    ensures RowForAsWritten(Some(rows), |rows|) == Failure(SampleInfoKey(|rows|))
    ensures RowFor(Some(rows), |rows|) == Failure(SampleInfoShort)
    ensures i != |rows| ==> RowForAsWritten(Some(rows), i) == RowFor(Some(rows), i)
  {
  }

  /** The one-column table of sample ids put in place of a missing table when the viewer is
      downloaded. */
  function DefaultInfo(ids: seq<Value>): (r: seq<Row>)
    ensures |r| == |ids|
    ensures forall i :: 0 <= i < |ids| ==> r[i] == [ids[i]]
  {
    seq(|ids|, i requires 0 <= i < |ids| => [ids[i]])
  }

  /** The default table has a row for every sample, so step 3 never stops with it. */
  lemma DefaultInfoCovers(ids: seq<Value>, i: nat)
    requires i < |ids|
    ensures RowFor(Some(DefaultInfo(ids)), i) == Success(Some([ids[i]]))
  {
  }
}

=== FILE: samples.dfy ===
/** The annotated matrix the export reads, and its split into one slice per sample
    (prepare_viz.py:76-79 and :149-152). */
module Samples {
  import opened Values
  import opened Seqs

  type Matrix = seq<seq<real>>

  /** The in-memory annotated matrix: one observation row per cell or spot (its index is the
      barcode), the categories of each categorical observation column in their declared order,
      one variable per gene, the primary matrix `x` (cells by genes) and the named alternate
      layers, each of the same shape as `x`. */
  datatype AnnData = AnnData(
    obsNames: seq<string>,
    obsColumns: set<string>,
    obs: seq<map<string, Value>>,
    categories: map<string, seq<Value>>,
    varNames: seq<string>,
    x: Matrix,
    layers: map<string, Matrix>)

  predicate Shaped(m: Matrix, rows: nat, cols: nat) {
    |m| == rows && forall i :: 0 <= i < rows ==> |m[i]| == cols
  }

  /** What the annotated-matrix library guarantees of every object it hands out. */
  predicate WellFormed(a: AnnData) {
    && |a.obsNames| == |a.obs|
    && (forall i :: 0 <= i < |a.obs| ==> a.obs[i].Keys == a.obsColumns)
    && (forall c :: c in a.categories ==> Distinct(a.categories[c]))
    && (forall c, i :: c in a.categories && c in a.obsColumns && 0 <= i < |a.obs| ==> a.obs[i][c] in a.categories[c])
    && Shaped(a.x, |a.obs|, |a.varNames|)
    && (forall l :: l in a.layers ==> Shaped(a.layers[l], |a.obs|, |a.varNames|))
  }

  /** `obs[col]`: the column's value in every row. */
  function Column(a: AnnData, col: string): (r: seq<Value>)
    requires WellFormed(a) && col in a.obsColumns
    ensures |r| == |a.obs|
    ensures forall i :: 0 <= i < |r| ==> r[i] == a.obs[i][col]
  {
    seq(|a.obs|, i requires 0 <= i < |a.obs| => a.obs[i][col])
  }

  /** The mask `obs[col] == v`, as the positions it selects, in increasing order. */
  function RowsOf(col: seq<Value>, v: Value): (r: seq<nat>)
    ensures forall k :: 0 <= k < |r| ==> r[k] < |col| && col[r[k]] == v
    ensures forall i :: 0 <= i < |col| && col[i] == v ==> i in r
    ensures forall k, l :: 0 <= k < l < |r| ==> r[k] < r[l]
  {
    if col == [] then []
    else
      var front := RowsOf(col[..|col| - 1], v);
      assert forall k :: 0 <= k < |front| ==> front[k] < |col| - 1;
      front + (if col[|col| - 1] == v then [|col| - 1] else [])
  }

  /** Every row lies in the slice of exactly one sample. */
  lemma RowsPartition(col: seq<Value>, i: nat)
    requires i < |col|
    ensures exists k :: 0 <= k < |Unique(col)| && i in RowsOf(col, Unique(col)[k])
    ensures forall k, l ::
      && 0 <= k < |Unique(col)| && 0 <= l < |Unique(col)|
      && i in RowsOf(col, Unique(col)[k]) && i in RowsOf(col, Unique(col)[l])
      ==> k == l
  {
    var u := Unique(col);
    var k := FirstIndex(u, col[i]);
    assert i in RowsOf(col, u[k]);
    forall k, l | 0 <= k < |u| && 0 <= l < |u| && i in RowsOf(col, u[k]) && i in RowsOf(col, u[l])
      ensures k == l
    {
      var rk, rl := RowsOf(col, u[k]), RowsOf(col, u[l]);
      var p :| 0 <= p < |rk| && rk[p] == i;
      var q :| 0 <= q < |rl| && rl[q] == i;
      assert u[k] == col[i] == u[l];
    }
  }

  /** `a[rows, ]`: the rows at the given positions, in that order, with every gene. */
  function Slice(a: AnnData, rows: seq<nat>): (r: AnnData)
    requires WellFormed(a)
    requires forall k :: 0 <= k < |rows| ==> rows[k] < |a.obs|
    ensures WellFormed(r)
    ensures |r.obs| == |rows| && r.varNames == a.varNames && r.obsColumns == a.obsColumns
    ensures r.layers.Keys == a.layers.Keys && r.categories == a.categories
    ensures forall k :: 0 <= k < |rows| ==>
      && r.obsNames[k] == a.obsNames[rows[k]] && r.obs[k] == a.obs[rows[k]] && r.x[k] == a.x[rows[k]]
    ensures forall l, k :: l in a.layers && 0 <= k < |rows| ==> r.layers[l][k] == a.layers[l][rows[k]]
  {
    AnnData(
      seq(|rows|, k requires 0 <= k < |rows| => a.obsNames[rows[k]]),
      a.obsColumns,
      seq(|rows|, k requires 0 <= k < |rows| => a.obs[rows[k]]),
      a.categories,
      a.varNames,
      seq(|rows|, k requires 0 <= k < |rows| => a.x[rows[k]]),
      map l | l in a.layers :: seq(|rows|, k requires 0 <= k < |rows| => a.layers[l][rows[k]]))
  }

  /** The slice of one sample, `a[a.obs[col] == v, ]`: exactly the rows holding `v`, each once,
      in their original order, with their names, observations and counts in every matrix. */
  function SampleSlice(a: AnnData, col: string, v: Value): (r: AnnData)
    requires WellFormed(a) && col in a.obsColumns
    ensures WellFormed(r) && r.varNames == a.varNames && r.obsColumns == a.obsColumns
    ensures r.categories == a.categories && r.layers.Keys == a.layers.Keys
    ensures var rows := RowsOf(Column(a, col), v);
      && (forall i :: 0 <= i < |a.obs| ==> (i in rows <==> a.obs[i][col] == v))
      && (forall k, l :: 0 <= k < l < |rows| ==> rows[k] < rows[l])
      && |r.obs| == |rows|
      && (forall k :: 0 <= k < |rows| ==>
            && r.obsNames[k] == a.obsNames[rows[k]] && r.obs[k] == a.obs[rows[k]] && r.x[k] == a.x[rows[k]])
      && (forall l, k :: l in a.layers && 0 <= k < |rows| ==> r.layers[l][k] == a.layers[l][rows[k]])
    ensures forall k :: 0 <= k < |r.obs| ==> r.obs[k][col] == v
  {
    Slice(a, RowsOf(Column(a, col), v))
  }
}

=== FILE: seqs.dfy ===
/** Facts about sequences used by several components: distinctness, first occurrence, and
    pandas' `unique` (distinct values in order of first appearance). */
module Seqs {

  predicate Distinct<T(==)>(s: seq<T>) {
    forall i, j :: 0 <= i < j < |s| ==> s[i] != s[j]
  }

  function Elements<T>(s: seq<T>): set<T> {
    set x | x in s
  }

  lemma {:induction false} DistinctCard<T>(s: seq<T>)
    requires Distinct(s)
    ensures |Elements(s)| == |s|
  {
    if s != [] {
      var t := s[..|s| - 1];
      DistinctCard(t);
      assert Elements(s) == Elements(t) + {s[|s| - 1]};
      assert s[|s| - 1] !in Elements(t);
    }
  }

  /** A sequence without repetitions drawn from a set is no longer than the set. */
  lemma DistinctBound<T>(s: seq<T>, bound: set<T>)
    requires Distinct(s)
    requires forall x :: x in s ==> x in bound
    ensures |s| <= |bound|
  {
    DistinctCard(s);
    var e := Elements(s);
    assert bound == e + (bound - e);
    assert e * (bound - e) == {};
  }

  /** Two sequences without repetitions that hold the same elements have the same length. */
  lemma DistinctSameElements<T>(a: seq<T>, b: seq<T>)
    requires Distinct(a) && Distinct(b)
    requires forall x :: x in a <==> x in b
    ensures |a| == |b|
  {
    DistinctCard(a);
    DistinctCard(b);
    assert Elements(a) == Elements(b);
  }

  /** The index of the first occurrence of `x` in `s`. */
  function FirstIndex<T(==)>(s: seq<T>, x: T): (r: nat)
    requires x in s
    ensures r < |s| && s[r] == x
    ensures forall j :: 0 <= j < r ==> s[j] != x
  {
    if s[0] == x then 0 else 1 + FirstIndex(s[1..], x)
  }

  lemma FirstIndexExtend<T>(t: seq<T>, y: T, x: T)
    requires x in t
    ensures FirstIndex(t + [y], x) == FirstIndex(t, x)
  {
    var r1, r2 := FirstIndex(t + [y], x), FirstIndex(t, x);
    assert (t + [y])[r2] == x;
    assert r1 <= r2;
    assert t[r1] == x;
  }

  /** `pd.Series.unique()`: every value once, in the order in which values first appear. */
  function Unique<T(==,!new)>(s: seq<T>): (r: seq<T>)
    ensures Distinct(r)
    ensures forall x :: x in r <==> x in s
    ensures |r| <= |s|
  {
    if s == [] then []
    else
      var u := Unique(s[..|s| - 1]);
      assert s == s[..|s| - 1] + [s[|s| - 1]];
      if s[|s| - 1] in u then u else u + [s[|s| - 1]]
  }

  /** `Unique` lists the values in order of their first appearance in the input. */
  lemma {:induction false} UniqueFirstAppearance<T(!new)>(s: seq<T>)
    ensures forall i, j :: 0 <= i < j < |Unique(s)| ==>
      FirstIndex(s, Unique(s)[i]) < FirstIndex(s, Unique(s)[j])
  {
    if s != [] {
      var t, y := s[..|s| - 1], s[|s| - 1];
      assert s == t + [y];
      var u := Unique(t);
      UniqueFirstAppearance(t);
      forall x | x in t ensures FirstIndex(s, x) == FirstIndex(t, x) {
        FirstIndexExtend(t, y, x);
      }
      if y !in u {
        assert Unique(s) == u + [y];
        assert FirstIndex(s, y) == |t|;
      }
    }
  }
}

=== FILE: text.dfy ===
/** String operations the export relies on, with Python's semantics: `str.replace` of one
    character by nothing, `str.split` on a non-empty separator, `str.join`, `str.isdigit` on one
    character, and `os.path.join` on POSIX. */
module Text {
  import opened Wrappers

  /** `c.isdigit()` for one character, restricted to the ASCII digits. */
  predicate IsDigit(c: char) {
    '0' <= c <= '9'
  }

  /** `s.replace(c, "")`: every occurrence of `c` is dropped, every other character kept. */
  function Without(s: string, c: char): (r: string)
    ensures multiset(r) == multiset(s)[c := 0]
    ensures c !in r
    ensures c !in s ==> r == s
    ensures |r| <= |s|
  {
    if s == [] then []
    else
      assert s == [s[0]] + s[1..];
      if s[0] == c then Without(s[1..], c) else [s[0]] + Without(s[1..], c)
  }

  /** `sep` occurs in `s` starting at index `j`. */
  predicate OccursAt(s: string, sep: string, j: nat) {
    j + |sep| <= |s| && s[j..j + |sep|] == sep
  }

  ghost predicate Contains(s: string, sep: string) {
    exists j: nat :: OccursAt(s, sep, j)
  }

  lemma OccursShift(s: string, sep: string, j: nat)
    requires |s| > 0
    ensures OccursAt(s[1..], sep, j) <==> OccursAt(s, sep, j + 1)
  {
    if j + |sep| <= |s[1..]| {
      assert s[1..][j..j + |sep|] == s[j + 1..j + 1 + |sep|];
    }
  }

  /** The index of the first occurrence of `sep` in `s`, as `s.find(sep)` computes it. */
  function IndexOf(s: string, sep: string): (r: Option<nat>)
    requires |sep| > 0
    ensures r.Some? ==> OccursAt(s, sep, r.value)
    ensures r.Some? ==> forall j: nat :: j < r.value ==> !OccursAt(s, sep, j)
    ensures r.None? ==> !Contains(s, sep)
    decreases |s|
  {
    if |s| < |sep| then None
    else if s[..|sep|] == sep then Some(0)
    else
      var rest := IndexOf(s[1..], sep);
      assert forall j: nat :: OccursAt(s[1..], sep, j) <==> OccursAt(s, sep, j + 1) by {
        forall j: nat ensures OccursAt(s[1..], sep, j) <==> OccursAt(s, sep, j + 1) {
          OccursShift(s, sep, j);
        }
      }
      assert !OccursAt(s, sep, 0);
      match rest
      case None =>
        assert forall j: nat :: !OccursAt(s, sep, j) by {
          forall j: nat ensures !OccursAt(s, sep, j) {
            if j > 0 { assert !OccursAt(s[1..], sep, j - 1); }
          }
        }
        None
      case Some(k) =>
        assert forall j: nat :: j < k + 1 ==> !OccursAt(s, sep, j) by {
          forall j: nat | j < k + 1 ensures !OccursAt(s, sep, j) {
            if j > 0 { assert !OccursAt(s[1..], sep, j - 1); }
          }
        }
        Some(k + 1)
  }

  /** `sep.join(parts)`. */
  function Join(sep: string, parts: seq<string>): (r: string)
    ensures |parts| > 0 ==> parts[0] <= r
  {
    if |parts| == 0 then ""
    else if |parts| == 1 then parts[0]
    else parts[0] + sep + Join(sep, parts[1..])
  }

  /** Joining one more piece appends the separator and that piece. */
  lemma {:induction false} JoinSnoc(sep: string, parts: seq<string>, last: string)
    requires |parts| >= 1
    ensures Join(sep, parts + [last]) == Join(sep, parts) + sep + last
  {
    if |parts| > 1 {
      assert (parts + [last])[1..] == parts[1..] + [last];
      JoinSnoc(sep, parts[1..], last);
    }
  }

  lemma NoOccurrenceInPrefix(s: string, sep: string, k: nat)
    requires |sep| > 0 && k <= |s|
    requires forall j: nat :: j < k ==> !OccursAt(s, sep, j)
    ensures !Contains(s[..k], sep)
  {
    forall j: nat ensures !OccursAt(s[..k], sep, j) {
      if j + |sep| <= k {
        assert s[..k][j..j + |sep|] == s[j..j + |sep|];
        assert !OccursAt(s, sep, j);
      }
    }
  }

  /** `s.split(sep)` for a non-empty separator: the pieces between the occurrences of `sep`,
      found left to right without overlap. Joining them again gives back `s`. */
  function Split(s: string, sep: string): (r: seq<string>)
    requires |sep| > 0
    ensures |r| >= 1
    ensures Join(sep, r) == s
    ensures forall k :: 0 <= k < |r| ==> !Contains(r[k], sep)
    ensures forall j: nat :: j < |r[0]| ==> !OccursAt(s, sep, j)
    decreases |s|
  {
    match IndexOf(s, sep)
    case None => [s]
    case Some(k) =>
      var rest := Split(s[k + |sep|..], sep);
      NoOccurrenceInPrefix(s, sep, k);
      assert s == s[..k] + sep + s[k + |sep|..];
      [s[..k]] + rest
  }

  lemma NoCharNoIndex(t: string, c: char)
    requires c !in t
    ensures IndexOf(t, [c]) == None
  {
    forall j: nat ensures !OccursAt(t, [c], j) {
      if j + 1 <= |t| { assert t[j..j + 1] == [t[j]]; }
    }
  }

  /** For a one-character separator, splitting undoes joining pieces that do not contain it. */
  lemma {:induction false} SplitJoinChar(c: char, parts: seq<string>)
    requires |parts| >= 1
    requires forall k :: 0 <= k < |parts| ==> c !in parts[k]
    ensures Split(Join([c], parts), [c]) == parts
  {
    if |parts| == 1 {
      NoCharNoIndex(parts[0], c);
    } else {
      var p0, rest := parts[0], Join([c], parts[1..]);
      var s := p0 + [c] + rest;
      assert Join([c], parts) == s;
      assert s[|p0|..|p0| + 1] == [c];
      assert OccursAt(s, [c], |p0|);
      forall j: nat | j < |p0| ensures !OccursAt(s, [c], j) {
        assert s[j..j + 1] == [p0[j]];
      }
      assert IndexOf(s, [c]) == Some(|p0|);
      assert s[..|p0|] == p0;
      assert s[|p0| + 1..] == rest;
      assert Split(s, [c]) == [p0] + Split(rest, [c]);
      SplitJoinChar(c, parts[1..]);
      assert parts == [p0] + parts[1..];
    }
  }

  /** `os.path.join(a, b)` on POSIX: an absolute `b` replaces `a`; otherwise a `/` is inserted
      unless `a` is empty or already ends with one. */
  function PathJoin(a: string, b: string): (r: string)
    ensures (|b| == 0 || b[0] != '/') ==> |r| >= |b| && r[|r| - |b|..] == b
    ensures (|b| == 0 || b[0] != '/') ==> |r| >= |a| && r[..|a|] == a
  {
    if |b| > 0 && b[0] == '/' then b
    else if a == "" || a[|a| - 1] == '/' then a + b
    else a + "/" + b
  }

  /** Joining different relative names onto the same directory gives different paths. */
  lemma PathJoinInjective(a: string, b1: string, b2: string)
    requires |b1| > 0 && b1[0] != '/'
    requires |b2| > 0 && b2[0] != '/'
    requires b1 != b2
    ensures PathJoin(a, b1) != PathJoin(a, b2)
  {
    var p := if a == "" || a[|a| - 1] == '/' then a else a + "/";
    assert PathJoin(a, b1) == p + b1 && PathJoin(a, b2) == p + b2;
    assert (p + b1)[|p|..] == b1;
    assert (p + b2)[|p|..] == b2;
  }
}

=== FILE: values.dfy ===
/** Cell values of the observation table, and the ascending order pandas sorts them by:
    numbers numerically, strings by code point (Python's string comparison). */
module Values {
  import opened Seqs

  datatype Value = Num(n: int) | Text(s: string)

  /** Python's `a < b` on strings: lexicographic by code point, a proper prefix first. */
  predicate StrLess(a: string, b: string)
    decreases |a|
  {
    if |a| == 0 then |b| > 0
    else if |b| == 0 then false
    else if a[0] != b[0] then a[0] < b[0]
    else StrLess(a[1..], b[1..])
  }

  lemma {:induction false} StrLessIrreflexive(a: string)
    ensures !StrLess(a, a)
    decreases |a|
  {
    if |a| > 0 { StrLessIrreflexive(a[1..]); }
  }

  lemma {:induction false} StrLessTransitive(a: string, b: string, c: string)
    requires StrLess(a, b) && StrLess(b, c)
    ensures StrLess(a, c)
    decreases |a|
  {
    if |a| > 0 && a[0] == b[0] && b[0] == c[0] {
      StrLessTransitive(a[1..], b[1..], c[1..]);
    }
  }

  lemma {:induction false} StrLessTotal(a: string, b: string)
    requires a != b
    ensures StrLess(a, b) || StrLess(b, a)
    decreases |a|
  {
    if |a| > 0 && |b| > 0 && a[0] == b[0] {
      assert a == [a[0]] + a[1..] && b == [b[0]] + b[1..];
      StrLessTotal(a[1..], b[1..]);
    }
  }

  /** The ascending order on values. A column mixing numbers and strings is never sorted
      (pandas refuses to compare them); the cross-kind case only makes the order total. */
  predicate Less(x: Value, y: Value) {
    match (x, y)
    case (Num(a), Num(b)) => a < b
    case (Text(a), Text(b)) => StrLess(a, b)
    case (Num(_), Text(_)) => true
    case (Text(_), Num(_)) => false
  }

  lemma LessIrreflexive(x: Value)
    ensures !Less(x, x)
  {
    if x.Text? { StrLessIrreflexive(x.s); }
  }

  lemma LessTransitive(x: Value, y: Value, z: Value)
    requires Less(x, y) && Less(y, z)
    ensures Less(x, z)
  {
    if x.Text? && y.Text? && z.Text? { StrLessTransitive(x.s, y.s, z.s); }
  }

  lemma LessTotal(x: Value, y: Value)
    requires x != y
    ensures Less(x, y) || Less(y, x)
  {
    if x.Text? && y.Text? { StrLessTotal(x.s, y.s); }
  }

  predicate StrictlyIncreasing(s: seq<Value>) {
    forall i, j :: 0 <= i < j < |s| ==> Less(s[i], s[j])
  }

  lemma IncreasingIsDistinct(s: seq<Value>)
    requires StrictlyIncreasing(s)
    ensures Distinct(s)
  {
    forall i, j | 0 <= i < j < |s| ensures s[i] != s[j] {
      LessIrreflexive(s[i]);
    }
  }

  /** Adds `x` to an ascending sequence of distinct values, keeping it ascending. */
  function Insert(x: Value, s: seq<Value>): (r: seq<Value>)
    requires StrictlyIncreasing(s)
    ensures StrictlyIncreasing(r)
    ensures forall v :: v in r <==> v in s || v == x
  {
    if s == [] then [x]
    else if x == s[0] then s
    else if Less(x, s[0]) then
      assert StrictlyIncreasing([x] + s) by {
        forall j | 0 < j < |s| ensures Less(x, s[j]) { LessTransitive(x, s[0], s[j]); }
      }
      [x] + s
    else
      LessTotal(x, s[0]);
      var rest := Insert(x, s[1..]);
      assert forall v :: v in rest ==> Less(s[0], v);
      [s[0]] + rest
  }

  /** The distinct values of a plain cluster column in ascending order: what the cluster step
      evidently intends for a column that is not categorical (`sorted(set(...))`). */
  function SortDistinct(s: seq<Value>): (r: seq<Value>)
    ensures StrictlyIncreasing(r)
    ensures forall v :: v in r <==> v in s
  {
    if s == [] then [] else Insert(s[0], SortDistinct(s[1..]))
  }

  /** Sorting the distinct values keeps exactly as many as `unique` finds. */
  lemma SortDistinctCount(s: seq<Value>)
    ensures |SortDistinct(s)| == |Unique(s)|
  {
    IncreasingIsDistinct(SortDistinct(s));
    DistinctSameElements(SortDistinct(s), Unique(s));
  }
}

=== FILE: viewer_config.dfy ===
/** The viewer configuration update (prepare_viz.py:117-133): caller overrides replace values of
    keys the configuration already has, then the five export settings are written. */
module ViewerConfig {
  import opened Wrappers

  /** Configuration keys and their values, each value as its JSON text. */
  type Config = map<string, string>

  datatype FileNames = FileNames(expressions: string, expressionsSparse: string, genes: string, barcodes: string)

  const ExpressionsKey := "data_file_name_expressions"
  const ExpressionsSparseKey := "data_file_name_expressions_sparse"
  const GenesKey := "data_file_name_genes"
  const BarcodesKey := "data_file_name_barcodes"
  const ClusterKey := "data_cluster_column"

  function FixedKeys(): set<string> {
    {ExpressionsKey, ExpressionsSparseKey, GenesKey, BarcodesKey, ClusterKey}
  }

  /** The configuration after the override loop: same keys, overridden values where given. */
  function Overridden(config: Config, overrides: Config): (r: Config)
    ensures r.Keys == config.Keys
    ensures forall k :: k in config && k in overrides ==> r[k] == overrides[k]
    ensures forall k :: k in config && k !in overrides ==> r[k] == config[k]
  {
    map k | k in config :: if k in overrides then overrides[k] else config[k]
  }

  /** The loop over `config_list.items()`: a key the configuration lacks is skipped, any other
      key takes the caller's value. */
  method ApplyOverrides(config: Config, overrides: Config) returns (r: Config)
    ensures r.Keys == config.Keys
    ensures forall k :: k in config && k in overrides ==> r[k] == overrides[k]
    ensures forall k :: k in config && k !in overrides ==> r[k] == config[k]
    ensures r == Overridden(config, overrides)
  {
    r := config;
    var pending := overrides.Keys;
    while pending != {}
      invariant pending <= overrides.Keys
      invariant r.Keys == config.Keys
      invariant forall k :: k in r ==> r[k] == if k in overrides && k !in pending then overrides[k] else config[k]
      decreases pending
    {
      var k :| k in pending;
      if k in r {
        r := r[k := overrides[k]];
      }
      pending := pending - {k};
    }
  }

  /** The whole update: overrides when the caller gave a non-empty mapping, then the five settings. */
  method UpdateConfig(config: Config, configList: Option<Config>, files: FileNames, clusterCol: string)
    returns (r: Config)
    ensures r.Keys == config.Keys + FixedKeys()
    ensures r[ExpressionsKey] == files.expressions && r[ExpressionsSparseKey] == files.expressionsSparse
    ensures r[GenesKey] == files.genes && r[BarcodesKey] == files.barcodes && r[ClusterKey] == clusterCol
    ensures forall k :: k in config && k !in FixedKeys() ==>
      r[k] == if configList.Some? && k in configList.value then configList.value[k] else config[k]
    ensures r == Updated(config, configList, files, clusterCol)
  {
    r := config;
    if configList.Some? && |configList.value| > 0 {
      r := ApplyOverrides(config, configList.value);
    }
    r := r[ExpressionsKey := files.expressions];
    r := r[ExpressionsSparseKey := files.expressionsSparse];
    r := r[GenesKey := files.genes];
    r := r[BarcodesKey := files.barcodes];
    r := r[ClusterKey := clusterCol];
  }

  /** The configuration written back to the viewer, as a value. */
  function Updated(config: Config, configList: Option<Config>, files: FileNames, clusterCol: string): (r: Config)
    ensures r.Keys == config.Keys + FixedKeys()
    ensures forall k :: k in config && k !in FixedKeys() ==>
      r[k] == if configList.Some? && k in configList.value then configList.value[k] else config[k]
  {
    var merged := if configList.Some? && |configList.value| > 0 then Overridden(config, configList.value) else config;
    merged[ExpressionsKey := files.expressions][ExpressionsSparseKey := files.expressionsSparse]
          [GenesKey := files.genes][BarcodesKey := files.barcodes][ClusterKey := clusterCol]
  }

  /** An override of one of the five settings has no effect: the fixed value wins. */
  lemma FixedSettingsWin(config: Config, configList: Option<Config>, files: FileNames, clusterCol: string)
    ensures var r := Updated(config, configList, files, clusterCol);
      && r[ExpressionsKey] == files.expressions && r[ExpressionsSparseKey] == files.expressionsSparse
      && r[GenesKey] == files.genes && r[BarcodesKey] == files.barcodes && r[ClusterKey] == clusterCol
  {
  }

  /** Overrides never add keys: a caller key the configuration lacks leaves no trace. */
  lemma OverridesAddNoKeys(config: Config, configList: Option<Config>, files: FileNames, clusterCol: string, k: string)
    requires k !in config && k !in FixedKeys()
    ensures k !in Updated(config, configList, files, clusterCol)
  {
  }
}

=== FILE: wrappers.dfy ===
/** Option and Result, the failure-carrying datatypes used throughout the model. */
module Wrappers {

  datatype Option<+T> = None | Some(value: T)

  datatype Result<+R, +E> = Success(value: R) | Failure(error: E) {
    predicate IsFailure() { Failure? }

    function PropagateFailure<U>(): Result<U, E>
      requires Failure?
    {
      Failure(error)
    }

    function Extract(): R
      requires Success?
    {
      value
    }
  }
}
